=== FILE: README.md ===
# ScrollSign in Dafny

A model of the core of ScrollSign. ScrollSign is a program that shows news headlines and fixed lines of text on a two-row RGB LED matrix. The model covers three parts:

- **Animation strategies** (`AnimationStrategies.cpp`, modules `Drawing` and `Animations`).
  - `chooseStrategy` picks Scroll for a text that does not fit, or one of six effects otherwise.
  - Every effect's `render` is a pure function from the scene to the sequence of draw operations it issues. The scene is canvas and font dimensions, text, row, colour and speed.
  - An erase is the same draw in black.
  - Each effect is proved to leave its row blank: every coloured draw is later followed by its own erase, except a frame that lies wholly off the left edge.
  - Frame counts, positions and orders are proved too: Scroll's two passes, Blink's six pairs, Fade's ramps, Bounce's ±2 motion, Typewriter's growing prefixes and the diagonal slide's corners.
- **Message assembly** (`MessageSources.cpp`, modules `Trimming` and `MessageSources`).
  - `trim`.
  - The configuration path search.
  - The XML item lists.
  - `MessageAggregator::fetchAll`: for each URL in order, one placeholder line per failure or one filtered and trimmed line per item, followed by the static lines.
- **The legacy row loop** (`displayFeeds` in `ScrollSignTest.cpp`, module `ScrollSign`).
  - One loop iteration is a state transition: reload or not, queue, shuffle.
  - A run of iterations shows when reloads happen.
  - The composition of the displayed title, including the history feed and the bottom row's clock.
  - The colour rejection loop, the choice of effect and the fit gate.
  - The legacy scroll, the blink and the erase sweeps as draw operations.

The outside world is passed in as parameters:

- the file system: a readability predicate and a loader outcome per file;
- HTTP: a response per URL;
- the XML parser: a parse outcome per body;
- the regular expression: a `string -> string` filter;
- the clock: a time per iteration and an hour and minute for the clock text;
- `rand`, `std::mt19937` and `random_shuffle`: draws passed in as values;
- the floating-point wave offset and slide interpolation: the `Dice` value.

## Model

| member | source | states |
|---|---|---|
| Trimming.TrimLeft | ScrollSignTest/MessageSources.cpp:25 | the result is a suffix of the input; everything dropped is spaces; the result does not start with a space |
| Trimming.TrimRight | ScrollSignTest/MessageSources.cpp:27 | the result is a prefix of the input; everything dropped is spaces; the result does not end with a space |
| Trimming.Trim | ScrollSignTest/MessageSources.cpp:23-29 | an all-space or empty input comes back unchanged; otherwise the result is the input's span between leading and trailing runs of spaces, and it neither starts nor ends with a space |
| Trimming.TrimKeepsUnpadded | ScrollSignTest/MessageSources.cpp:23-29 | only ' ' is stripped: a string that does not start or end with a space, whatever tabs or newlines it holds, is its own trim |
| Trimming.TrimKeepsHead | ScrollSignTest/ScrollSignTest.cpp:44-53 | a string that starts with a non-space keeps its head: the trim starts at the first character and reaches at least any later non-space |
| Trimming.TrimKeepsFront | ScrollSignTest/MessageSources.cpp:25-28 | a string whose first character is not a space loses only its trailing spaces |
| Trimming.TrimIdempotent | ScrollSignTest/ScrollSignTest.cpp:44-53 | trimming twice equals trimming once (the legacy copy of `trim` is the same algorithm) |
| Drawing.EraseOf | ScrollSignTest/AnimationStrategies.cpp:42-44 | an erase is the same text at the same place, in black |
| Drawing.Truncated | ScrollSignTest/AnimationStrategies.cpp:16-18 | the buffered text is a prefix of the input: all of it when the input has at most 1023 characters, exactly its first 1023 otherwise |
| Drawing.HalfRounded | ScrollSignTest/AnimationStrategies.cpp:40 | `round(n / 2.0)`: exact for even n, exact halves rounded away from zero for odd n |
| Drawing.Centre | ScrollSignTest/AnimationStrategies.cpp:40 | the centred left edge leaves left and right margins that differ by at most one pixel; an odd surplus goes to the left for a text that fits and to the right for one that overflows |
| Drawing.Countdown | ScrollSignTest/AnimationStrategies.cpp:22 | the values `hi, hi-1, ..., lo` of a descending `for` loop, and as many as that loop runs |
| Drawing.Countup | ScrollSignTest/ScrollSignTest.cpp:392 | the values `lo, ..., hi` of an ascending `for` loop |
| Drawing.Flash | ScrollSignTest/AnimationStrategies.cpp:41-46 | each draw is immediately followed by its own erase |
| Drawing.LeavesBlankAppend | ScrollSignTest/AnimationStrategies.cpp:127-136 | two traces that each clean up after themselves still do so when run one after the other |
| Drawing.FlashLeavesBlank | ScrollSignTest/AnimationStrategies.cpp:41-46 | draw/erase pairs leave the row blank |
| Animations.ChooseStrategy | ScrollSignTest/AnimationStrategies.cpp:185-202 | Scroll exactly when the text does not fit, whatever the generator yields; for a fitting text the values 0..5 pick Blink, Fade, Wave, Bounce, Typewriter and DiagonalSlide in that order |
| Animations.ChooseStrategyIsUniform | ScrollSignTest/AnimationStrategies.cpp:192-202 | every non-scroll strategy is selected by exactly one of the six generator values |
| Animations.ScrollPass | ScrollSignTest/AnimationStrategies.cpp:22-30 | one pass from edge x down to the last edge issues an erase and a draw per edge, except that no erase is issued when x is the previous edge; every draw is the text on the row, in the colour or in black; a start left of the last edge issues nothing |
| Animations.ScrollPassShape | ScrollSignTest/AnimationStrategies.cpp:22-30 | within a pass, every step erases the previous left edge in black and then draws one pixel further left |
| Animations.TwoPassShape | ScrollSignTest/AnimationStrategies.cpp:20-31 | across two passes, `prev_x` carries over, so the second pass's first draw erases the first pass's last frame |
| Animations.ScrollOpening | ScrollSignTest/AnimationStrategies.cpp:20-27 | the very first frame is drawn without an erase, because `prev_x` starts at the canvas width |
| Animations.ScrollTrace | ScrollSignTest/AnimationStrategies.cpp:15-31 | the scroll issues 4n-1 draws, n being the number of left edges of one pass; each is the buffered text on the baseline row, in the colour or in black |
| Animations.ScrollFrames | ScrollSignTest/AnimationStrategies.cpp:15-31 | the scroll issues 2n draws and 2n-1 erases; n is the number of left edges from the width down to `-9·\|text\| - 39`; frame k is erased in black right before frame k+1 |
| Animations.ScrollVisitsEveryColumn | ScrollSignTest/AnimationStrategies.cpp:21-27 | each of the two passes draws the text at every left edge from the width down to `-9·\|text\| - 39` |
| Animations.ScrollLeavesBlank | ScrollSignTest/AnimationStrategies.cpp:20-31 | every frame but the last is erased later; the last frame sits at `-9·\|text\| - 39`, wholly left of the canvas |
| Animations.BlinkTrace | ScrollSignTest/AnimationStrategies.cpp:36-46 | twelve draws, alternating colour and black, all at the centred left edge |
| Animations.BlinkLeavesBlank | ScrollSignTest/AnimationStrategies.cpp:41-46 | the blink leaves its row blank |
| Animations.Scale | ScrollSignTest/AnimationStrategies.cpp:62-66 | a faded component `c·step/10` is at most c, equals c at step 10 and is 0 at step 0 |
| Animations.ScaleMonotone | ScrollSignTest/AnimationStrategies.cpp:61-78 | a lower step never gives a brighter component |
| Animations.FadeShade | ScrollSignTest/AnimationStrategies.cpp:62-75 | the faded colour is no brighter than the colour in any component, is the colour at step 10 and black at step 0 |
| Animations.FadeCycles | ScrollSignTest/AnimationStrategies.cpp:56-59 | `max(1, 10000 / max(1, 22·speed))`: the number of whole 22-step cycles that fit in ten seconds, and at least one; exactly one when a cycle takes longer than ten seconds, and 10000 when the speed is zero or negative |
| Animations.FadeCycle | ScrollSignTest/AnimationStrategies.cpp:61-78 | a cycle is 22 draws at the centre with brightness 0..10 then 10..0 |
| Animations.Cycles | ScrollSignTest/AnimationStrategies.cpp:60 | n repetitions of a cycle |
| Animations.FadeTrace | ScrollSignTest/AnimationStrategies.cpp:50-79 | the fade issues 22 draws per cycle; draw k is the buffered text at the centred edge in the colour scaled by step k mod 22 of the ramp 0..10, 10..0 |
| Animations.FadeEndsBlack | ScrollSignTest/AnimationStrategies.cpp:70-78 | the fade's last draw is the buffered text at the centred edge in black |
| Animations.FadeLeavesBlank | ScrollSignTest/AnimationStrategies.cpp:60-79 | the fade leaves its row blank: its final black draw erases every earlier shade |
| Animations.WaveFrameCount | ScrollSignTest/AnimationStrategies.cpp:85-86 | `max(32, 10000/max(1, speed))`: at least 32 frames and at least ten seconds' worth, equal to one of the two, so no more than ten seconds' worth beyond 32 frames |
| Animations.WaveFrame | ScrollSignTest/AnimationStrategies.cpp:88-92 | one draw per character: character i alone, at the centred edge plus 9·i, in the colour |
| Animations.Erases | ScrollSignTest/AnimationStrategies.cpp:95-99 | each character's draw repeated in black |
| Animations.FrameThenErasesLeavesBlank | ScrollSignTest/AnimationStrategies.cpp:88-99 | a frame followed by the erase of each of its characters leaves the row blank |
| Animations.WaveFramesShape | ScrollSignTest/AnimationStrategies.cpp:87-100 | every frame draws and then erases each character: 2·\|text\| operations per frame |
| Animations.WaveFrames | ScrollSignTest/AnimationStrategies.cpp:87-100 | every draw of the frames is one character of the text, in the colour or in black, at an x inside the text's centred span |
| Animations.WaveTrace | ScrollSignTest/AnimationStrategies.cpp:83-101 | every draw of the wave is one character of the text, in the colour or in black, at an x inside the text's centred span |
| Animations.WaveLeavesBlank | ScrollSignTest/AnimationStrategies.cpp:83-101 | the wave leaves its row blank and issues exactly one draw and one erase per character and frame |
| Animations.BounceFrameCount | ScrollSignTest/AnimationStrategies.cpp:111-113 | the frame count is `max(2·max_x, 10000/max(1, speed))` |
| Animations.BounceStep | ScrollSignTest/AnimationStrategies.cpp:118-119 | the text moves by the current step; the step flips exactly when the new x is at or beyond an end of the lane (≤ 0 or ≥ `max_x`), and is kept otherwise |
| Animations.BounceMotions | ScrollSignTest/AnimationStrategies.cpp:114-120 | n frames, the first at the given position and step |
| Animations.BouncePath | ScrollSignTest/AnimationStrategies.cpp:109-120 | one motion per frame, the first at x = 0 moving right by 2 |
| Animations.BounceMotionsFollowStep | ScrollSignTest/AnimationStrategies.cpp:114-120 | consecutive frames are one loop step apart |
| Animations.BounceMoves | ScrollSignTest/AnimationStrategies.cpp:108-120 | the text starts at 0 moving right; each frame it moves by exactly ±2; the direction flips exactly when the new x is ≤ 0 or ≥ `width - 9·\|text\|` |
| Animations.BounceDirectionStaysTwo | ScrollSignTest/AnimationStrategies.cpp:110-119 | the step stays 2 or -2 |
| Animations.BounceStepStaysInLane | ScrollSignTest/AnimationStrategies.cpp:118-119 | one move keeps the text on an even position inside the lane |
| Animations.BounceLaneHolds | ScrollSignTest/AnimationStrategies.cpp:109-120 | every frame starts inside the lane |
| Animations.BounceStaysOnCanvas | ScrollSignTest/AnimationStrategies.cpp:109-120 | for a text narrower than the canvas the left edge stays between 0 and `max_x + 1` |
| Animations.BounceTrace | ScrollSignTest/AnimationStrategies.cpp:114-120 | two draws per frame: frame k draws the buffered text in the colour at the k-th position of the path, and the next draw is its erase |
| Animations.BounceLeavesBlank | ScrollSignTest/AnimationStrategies.cpp:114-120 | the bounce leaves its row blank |
| Animations.TypewriterTrace | ScrollSignTest/AnimationStrategies.cpp:124-137 | step i draws and then erases the prefix of length i+1 at the centre; then the full text is drawn and erased once |
| Animations.TypewriterPrefixesGrow | ScrollSignTest/AnimationStrategies.cpp:126-132 | the typed prefixes grow by one character and are prefixes of each other, up to the full text |
| Animations.TypewriterLeavesBlank | ScrollSignTest/AnimationStrategies.cpp:127-136 | every typed prefix and the final text are erased |
| Animations.SlideDirection | ScrollSignTest/AnimationStrategies.cpp:145-154 | row y = 0 picks corner 0 or 1, any other row picks 2 or 3; the random bit picks the right-hand corner |
| Animations.SlideStart | ScrollSignTest/AnimationStrategies.cpp:155-167 | corners 1 and 3 start at the width and every other value at `-9·\|text\|`; corners 2 and 3 start one font height below the canvas and every other value one font height above it, the `default` case included |
| Animations.SlideStartsOffCanvas | ScrollSignTest/AnimationStrategies.cpp:155-167 | the start is one font height above the canvas on the top row and one below it otherwise; it is at `-9·\|text\|` for a left corner and at the width for a right corner |
| Animations.SlideTrace | ScrollSignTest/AnimationStrategies.cpp:168-181 | 22 draw/erase pairs; the 22nd is at the centred final position |
| Animations.SlideLeavesBlank | ScrollSignTest/AnimationStrategies.cpp:169-180 | the slide leaves its row blank |
| Animations.Render | ScrollSignTest/AnimationStrategies.cpp:14-181 | each strategy renders its own trace: Scroll the two-pass scroll, Blink the blink, Fade the fade, Wave the wave, Bounce the bounce, Typewriter the typewriter and DiagonalSlide the slide; every one leaves its row blank |
| Animations.Present | ScrollSignTest/AnimationStrategies.cpp:185-202 | choosing by the fit test (the legacy loop's, as `fits` has no caller here) and then rendering always gives a renderable strategy; a text that does not fit is scrolled; a fitting text is drawn by the strategy its roll 0..5 selects, in source order (blink, fade, wave, bounce, typewriter, diagonal slide); the row is left blank |
| MessageSources.FirstReadable | ScrollSignTest/MessageSources.cpp:41-44 | the first prefix index whose candidate is readable, with none readable before it |
| MessageSources.ResolveConfigPath | ScrollSignTest/MessageSources.cpp:32-46 | `prefix[i] + name` for the smallest readable i in the fixed five-entry order, or the bare name when none is readable |
| MessageSources.ResolvePrefersFirstPrefix | ScrollSignTest/MessageSources.cpp:34-43 | a readable `Configs/` candidate always wins |
| MessageSources.LoadXmlItems | ScrollSignTest/MessageSources.cpp:49-61 | a failed load gives no items; otherwise one trimmed value per item, in document order |
| MessageSources.ConfigItems | ScrollSignTest/MessageSources.cpp:32-61 | the file found by the path search is loaded; a failed load gives nothing, otherwise one trimmed value per item, in order |
| MessageSources.LoadedItemsAreTrimmed | ScrollSignTest/MessageSources.cpp:56-59 | every loaded value is its own trim and has no space at either end unless it is all spaces |
| MessageSources.GetFeedUrls | ScrollSignTest/MessageSources.cpp:64-69 | "top" and "bottom" read `feeds/item/url` of TopFeeds.xml and BottomFeeds.xml; any other position gives nothing |
| MessageSources.GetStaticLines | ScrollSignTest/MessageSources.cpp:72-77 | "top" and "bottom" read `lines/item/text` of TopLines.xml and BottomLines.xml; any other position gives nothing |
| MessageSources.Outcome | ScrollSignTest/MessageSources.cpp:109-113 | a transport error is checked first, then an empty body, then the parse result |
| MessageSources.Contribution | ScrollSignTest/MessageSources.cpp:110-119 | a failure gives one line; a channel gives one line per item |
| MessageSources.FailurePlaceholders | ScrollSignTest/MessageSources.cpp:110-113 | a failed URL gives exactly one line; it starts with "[Feed Error] " for a transport error or empty body and with "[Parse Error] " for a parse failure, and it ends with the error text |
| MessageSources.ItemLines | ScrollSignTest/MessageSources.cpp:114-119 | item lines are `trim(filter(title))`, with the filter first, one per item in order; an empty channel adds nothing |
| MessageSources.ContributionLines | ScrollSignTest/MessageSources.cpp:109-119 | every line a URL contributes is its own trim or a "[Feed Error] " or "[Parse Error] " placeholder |
| MessageSources.Feeds | ScrollSignTest/MessageSources.cpp:107-120 | every line of the feed loop is its own trim or a "[Feed Error] " or "[Parse Error] " placeholder |
| MessageSources.FeedsPrefix | ScrollSignTest/MessageSources.cpp:108-120 | the lines of fewer URLs are a prefix of the lines of more |
| MessageSources.FeedsBlock | ScrollSignTest/MessageSources.cpp:108-120 | each URL's lines form one contiguous block at its place in URL order, and a failure does not stop the URLs after it |
| MessageSources.Contribute | ScrollSignTest/MessageSources.cpp:109-119 | the loop body for one URL produces that URL's contribution |
| MessageSources.FetchFeeds | ScrollSignTest/MessageSources.cpp:107-120 | the feed loop produces the URLs' contributions concatenated in URL order |
| MessageSources.FetchAll | ScrollSignTest/MessageSources.cpp:101-127 | the result is the feed lines followed by the static lines |
| MessageSources.StaticLinesFromFile | ScrollSignTest/MessageSources.cpp:72-77 | after any feed lines come, unfiltered, the trimmed values of TopLines.xml for "top" or BottomLines.xml for "bottom" in order, nothing when that file fails to load, and nothing for any other position |
| MessageSources.UnknownPositionYieldsNothing | ScrollSignTest/MessageSources.cpp:64-77 | a position other than "top" or "bottom" yields no lines at all |
| ScrollSign.GetUrls | ScrollSignTest/ScrollSignTest.cpp:76-109 | "top" reads TopFeeds.xml and "bottom" BottomFeeds.xml, the `url` of each item under the document element; one trimmed value per item the parser leaves in the document, in order, and nothing for a document with no items (`LoadFailed`) |
| ScrollSign.GetStaticText | ScrollSignTest/ScrollSignTest.cpp:111-140 | "top" reads TopLines.xml and "bottom" BottomLines.xml, the `text` of each item under `lines`; one trimmed value per item the parser leaves in the document, in order, and nothing for a document with no items (`LoadFailed`) |
| ScrollSign.TitleEntry | ScrollSignTest/ScrollSignTest.cpp:247-261 | every feed entry is its own trim |
| ScrollSign.TitleEntryShape | ScrollSignTest/ScrollSignTest.cpp:247-261 | a history.com entry is "Today in History: ", the filtered title, a space and the filtered description, with only trailing spaces cut, so it starts with "Today in History:"; any other feed's entry is `trim(filter(title))` |
| ScrollSign.HistoryEntryShape | ScrollSignTest/ScrollSignTest.cpp:250-261 | the history.com case of the entry shape |
| ScrollSign.LabelledText | ScrollSignTest/ScrollSignTest.cpp:252-261 | trimming the label followed by any title and description cuts only trailing spaces and keeps "Today in History:" |
| ScrollSign.LabelledTrim | ScrollSignTest/ScrollSignTest.cpp:252-261 | a text that opens with "Today in History: " loses only trailing spaces when trimmed |
| ScrollSign.Trimmed | ScrollSignTest/ScrollSignTest.cpp:270-281 | each static and event line is trimmed, in order |
| ScrollSign.TrimmedAreTrimmed | ScrollSignTest/ScrollSignTest.cpp:270-281 | trimmed lines are their own trim |
| ScrollSign.FeedTitles | ScrollSignTest/ScrollSignTest.cpp:235-266 | every feed entry is its own trim |
| ScrollSign.FeedTitlesPrefix | ScrollSignTest/ScrollSignTest.cpp:235-264 | the entries of fewer URLs are a prefix of the entries of more |
| ScrollSign.FeedTitlesBlock | ScrollSignTest/ScrollSignTest.cpp:235-264 | URL k's entries, one per item of its page in item order, sit right after the entries of the URLs before it, whatever URLs follow |
| ScrollSign.FeedTitlesAt | ScrollSignTest/ScrollSignTest.cpp:235-264 | item j of URL k's page gives the j-th entry after all entries of the URLs before k, and that entry is the item's `TitleEntry` |
| ScrollSign.Queue | ScrollSignTest/ScrollSignTest.cpp:235-281 | the queue is exactly the kept titles, then the feed entries, then the trimmed static lines, then the trimmed event lines; when the kept titles are trimmed every queued text is |
| ScrollSign.Swap | ScrollSignTest/ScrollSignTest.cpp:284 | a swap exchanges two elements and keeps the multiset |
| ScrollSign.ShuffleFrom | ScrollSignTest/ScrollSignTest.cpp:284 | the shuffle keeps the length and the multiset |
| ScrollSign.Shuffle | ScrollSignTest/ScrollSignTest.cpp:284 | the shuffle keeps the length and the multiset |
| ScrollSign.ShuffleIsPermutation | ScrollSignTest/ScrollSignTest.cpp:284 | `random_shuffle` is a permutation |
| ScrollSign.Step | ScrollSignTest/ScrollSignTest.cpp:201-284 | an iteration keeps the start time and ends the first pass; it leaves no URLs, static lines or event lines pending; a reload sets y and speed for the row (top 0 and 11, bottom 16 and 14) |
| ScrollSign.StepQueues | ScrollSignTest/ScrollSignTest.cpp:210-284 | a reload drops the old titles, and the new titles are a permutation of the fresh feed entries, then static lines, then event lines; without a reload the old titles are kept and the pending lines are added |
| ScrollSign.NothingPendingOnlyReshuffles | ScrollSignTest/ScrollSignTest.cpp:267-284 | with no URLs, static lines or event lines pending, an iteration that does not reload keeps the same multiset of titles |
| ScrollSign.QuietStepOnlyReshuffles | ScrollSignTest/ScrollSignTest.cpp:267-284 | an iteration that follows another one and comes within 120 seconds of the loop's start does not reload; it keeps the same multiset of titles and only reshuffles them |
| ScrollSign.StepKeepsTitlesTrimmed | ScrollSignTest/ScrollSignTest.cpp:235-284 | queued titles stay trimmed from iteration to iteration |
| ScrollSign.Iterate | ScrollSignTest/ScrollSignTest.cpp:201-205 | the endless `while` loop cut to a run: one state per iteration, starting from the given one |
| ScrollSign.IterateSteps | ScrollSignTest/ScrollSignTest.cpp:201-205 | consecutive states of a run are one iteration apart |
| ScrollSign.RunSteps | ScrollSignTest/ScrollSignTest.cpp:201-284 | consecutive states of a run of the loop as written are one iteration apart |
| ScrollSign.RunKeepsClock | ScrollSignTest/ScrollSignTest.cpp:197-229 | over a whole run of the loop as written, no iteration assigns the start time again, and every iteration clears the first-pass flag |
| ScrollSign.ClockKeptFromStart | ScrollSignTest/ScrollSignTest.cpp:197-199 | when no iteration moves the clock, every state keeps the initial start time, and the first pass is over after the first iteration |
| ScrollSign.ReloadsAfterTwoMinutes | ScrollSignTest/ScrollSignTest.cpp:197-229 | the start time never changes, so iteration k reloads exactly when it is the first iteration or comes more than 120 s after the start |
| ScrollSign.ReloadClockNeverRestarts | ScrollSignTest/ScrollSignTest.cpp:197-229 | iterations at 130 s and at 140 s both reload |
| ScrollSign.RefreshStep | ScrollSignTest/ScrollSignTest.cpp:208-229 | the corrected iteration restarts the clock at each reload and otherwise behaves like the iteration as written |
| ScrollSign.RefreshRunSteps | ScrollSignTest/ScrollSignTest.cpp:201-205 | consecutive states of a corrected run are one iteration apart |
| ScrollSign.LastReloadSetsClock | ScrollSignTest/ScrollSignTest.cpp:208-229 | when the clock follows reloads, an iteration's clock is the time of the last reload, and the iteration reloads exactly when more than 120 s have passed since that reload |
| ScrollSign.RefreshReloadsTwoMinutesApart | ScrollSignTest/ScrollSignTest.cpp:208-229 | in the corrected loop, reloads happen only when more than 120 s have passed since the previous reload |
| ScrollSign.RefreshWaitsTwoMinutes | ScrollSignTest/ScrollSignTest.cpp:208-229 | in the corrected loop, the iteration at 140 s keeps the titles loaded at 130 s |
| ScrollSign.TwoDigits | ScrollSignTest/ScrollSignTest.cpp:69 | two decimal digits, zero-padded, whose value is the number |
| ScrollSign.ClockText | ScrollSignTest/ScrollSignTest.cpp:62-72 | `" %I:%M %p"` is nine characters: a space, two digits giving the 12-hour clock's hour (1 to 12, equal to the hour modulo 12), a colon, two digits giving the minute, a space, then AM before noon and PM after |
| ScrollSign.DisplayTitle | ScrollSignTest/ScrollSignTest.cpp:286-296 | the top row shows the title; the bottom row shows the title, a space and the clock |
| ScrollSign.DisplayTitleShape | ScrollSignTest/ScrollSignTest.cpp:288-296 | the top row shows the title unchanged; the bottom row appends a space and the clock, with no width check, so two spaces come before the time and the text is ten characters longer |
| ScrollSign.ColourOf | ScrollSignTest/ScrollSignTest.cpp:299-301 | each component is `rand() % 255`, so it is at most 254 |
| ScrollSign.PickColour | ScrollSignTest/ScrollSignTest.cpp:299-308 | the colour chosen is the first draw whose components sum to 50 or more; every earlier draw was rejected |
| ScrollSign.SweepOf | ScrollSignTest/ScrollSignTest.cpp:341-428 | each branch's test is tried in order with a fresh draw: top-down below 3, then bottom-up below 4, left-to-right below 5, right-to-left below 6, otherwise nothing |
| ScrollSign.ChooseEffect | ScrollSignTest/ScrollSignTest.cpp:315-339 | blink and sweeps are reachable only when `9·\|title\| < width - 1`; blink on a first draw below 3, otherwise sweeps on a second draw below 8 with eight rounds, otherwise scroll |
| ScrollSign.HLines | ScrollSignTest/ScrollSignTest.cpp:348-351 | full-width black lines on the given pixel rows |
| ScrollSign.VLines | ScrollSignTest/ScrollSignTest.cpp:392-395 | black lines sixteen pixels high in the given columns |
| ScrollSign.SweepLines | ScrollSignTest/ScrollSignTest.cpp:346-427 | sweeps are black lines inside the row; row sweeps clear lines 0..15 (top) or 16..31 (bottom), falling or rising; column sweeps cover x = 0..width-1 left to right, or x = width..0 right to left |
| ScrollSign.TitleTrace | ScrollSignTest/ScrollSignTest.cpp:319-443 | every draw is the truncated title on the row's baseline, in the colour or in black, or a black line inside the row; the blink is twelve draws; the sweeps are exactly the sweep rounds around the title centred on the row's baseline |
| ScrollSign.LegacyScrollFrames | ScrollSignTest/ScrollSignTest.cpp:432-442 | the legacy scroll does two passes from the width down to `-9·\|title\| - 39`, drawing at every x in colour and issuing no erase draws |
| ScrollSign.LegacyBlinkLeavesBlank | ScrollSignTest/ScrollSignTest.cpp:323-334 | six draw/erase pairs at the centred position |
| ScrollSign.SweepRound | ScrollSignTest/ScrollSignTest.cpp:341-428 | a round with no sweep draws nothing; otherwise it draws the centred title first and then only black lines inside the row |
| ScrollSign.SweepRounds | ScrollSignTest/ScrollSignTest.cpp:339-429 | the rounds issue only the centred title and black lines inside the row |
| ScrollSign.ShowTitle | ScrollSignTest/ScrollSignTest.cpp:286-443 | no title is shown exactly when every colour draw is too dark; otherwise the colour is bright enough, the text is the row's display title, blink and sweeps occur only for a text narrower than the canvas less one, and every draw is that text in the colour or black, or a black line inside the row |
| ScrollSign.ShownWidthCountsTheClock | ScrollSignTest/ScrollSignTest.cpp:286-443 | on the bottom row the fit test counts the ten clock characters: a title gets blink or sweeps only when `9·(\|title\| + 10) < width - 1`, and is otherwise scrolled from the width down to `-9·(\|title\| + 10) - 39` |

## Left out

- HTTP (`fetchUrl`, `getRssXml`, the curl write callback): a foreign library. Each URL's response, or in the legacy loop its list of items, is a parameter. A failed legacy download leaves an empty or partial body, because `getRssXml` ignores the result of the transfer (ScrollSignTest/ScrollSignTest.cpp:159-177); whatever items the parser finds in it are covered by the item-list parameter.
- XML parsing (pugixml): a foreign library. The result of loading a file or parsing a body is a parameter.
- Regular expressions (`std::regex`, `regex_replace`, `getRegexStr`): a foreign library. The filter is an uninterpreted `string -> string` function. The exception an invalid pattern throws is not modelled.
- `access(R_OK)`: readability is a predicate parameter.
- The two threads that share one canvas: concurrency. Each row is modelled on its own.
- `usleep`, `time`, `difftime`, `localtime`, `strftime`: wall-clock behaviour. The time of each iteration is an input, and so are the hour and minute of the clock text. Sleep durations are dropped.
- `rand`, `std::random_device`, `std::mt19937`: the draws are parameters.
- Animations.WaveFrame: the `sin` vertical offset is an integer function of frame and character. This is floating point.
- Animations.SlideTrace: the interpolated positions are a function of start, end and step. This is floating point.
- Drawing with `rgb_matrix` (fonts, canvas, pixels): draw operations are data. "Leaves its row blank" is a statement about those operations, not about pixels. Overlapping texts are not modelled.
- `main`'s option parsing, `parseColor`, font loading and brightness checks: thin library wrappers.
- `FlipAnimation`: declared in the header but never defined or selected.
- 32-bit overflow of `9·|text|`, of `22·speed` and of the sleep products: it would need texts of hundreds of millions of characters or absurd speeds.
- Animations.WaveTrace: requires `9·|text| <= width`. The source centres with unsigned `size_t` arithmetic, which wraps for wider texts. Present hands Wave and Typewriter only texts satisfying Fits, which implies TextFits.
- Animations.Fits: `chooseStrategy` takes `fits` as a parameter (ScrollSignTest/AnimationStrategies.cpp:185), and no code in this source computes it for the strategies. Present computes it with the legacy loop's test `9·|text| < width - 1` (ScrollSignTest/ScrollSignTest.cpp:323); that choice is the model's, not the source's.
- Animations.TypewriterTrace: requires `9·|text| <= width`, for the same unsigned centring as Wave.
- ScrollSign.PickColour: the source retries without bound. The model takes a finite list of draws and returns no colour when every draw in it is too dark.
- ScrollSign.ShuffleIsPermutation: only the permutation is claimed, not the distribution of `random_shuffle`. The swap loop models the usual library algorithm.
- ScrollSign.Step: the position is a `Row` of top or bottom, because `main` starts the loop for only those two. For any other position the source never sets `y` or `speed`.
- ScrollSign.GetUrls: the legacy getters print or drop the parse result and walk the document anyway (ScrollSignTest/ScrollSignTest.cpp:93-98, 127-137). So a malformed file still yields the items the XML parser kept before the error. The parser is a foreign library, so the model does not derive that partial tree: `load` is a parameter that returns it, and `LoadFailed` means a document with no items. The same holds for ScrollSign.GetStaticText.
- ScrollSign.DisplayTitleShape: the bottom row's clock is appended whatever the title's width (ScrollSignTest/ScrollSignTest.cpp:293-296).
- Text is a sequence of bytes: a Dafny `char` stands for one byte of the program's UTF-8 `std::string`, so `|s|` is `size()`. Widths (`9·|text|`), the fit tests, the 1023-byte buffer, Wave's one glyph per byte and Typewriter's byte prefixes are all counted in bytes, as the program counts them; a multi-byte character is several of these.
- The legacy loop's background colour: its draws pass `&bg_color`, a black background (ScrollSignTest/ScrollSignTest.cpp:185, 329-331, 344, 366, 388, 410, 439), while the strategies pass none. A draw operation has no background field, so the black cell background each legacy draw paints is not modelled.
- The diagnostics written to stderr with `fprintf` (ScrollSignTest/ScrollSignTest.cpp:94, 102, 134, 206, 260, 319: load results, URLs, static text, seconds since the start, titles, and the chosen colour with the row name): output only, with no effect on what is shown. `rowName` exists only for that output and is not modelled.
- ScrollSign.Step: `eventLines` is kept in the state and appended to the queue as the source does. No code ever fills it.

## Findings

| source | as written | input that shows it | evidently intended | confidence | as-written member | corrected member |
|---|---|---|---|---|---|---|
| ScrollSignTest/ScrollSignTest.cpp:197-229 | `startTime` is set once before the loop and never reset, so once 120 s have passed every iteration reloads the configuration and re-downloads every feed | iterations at 0 s, 130 s and 140 s: those at 130 s and at 140 s both reload, 10 s apart | the comment at line 208 asks for at least two minutes since the last grab, so the clock should restart at each reload | medium; not executed | ScrollSign.ReloadClockNeverRestarts | ScrollSign.RefreshReloadsTwoMinutesApart |

`ScrollSign.RefreshStep` is the corrected iteration. It differs from `ScrollSign.Step` only in the start time, so the queue, shuffle and trimming lemmas proved for `Step` also hold for it.

=== FILE: animations.dfy ===
/** The animation strategies of AnimationStrategies.cpp. Each `render` is a
    pure function from the scene (canvas and font dimensions, text, row,
    colour, speed) to the sequence of draw operations it issues; sleeps are
    dropped and only the frames remain. Random choices, the `sin` wave
    offset and the float interpolation of the diagonal slide are supplied
    in a `Dice` value. */
module Animations {
  import opened Drawing

  datatype Strategy = Scroll | Blink | Fade | Wave | Bounce | Typewriter | DiagonalSlide

  /** The strategies a fitting text can get, listed by the generator value
      (0 to 5) that selects each. */
  const FittingStrategies: seq<Strategy> := [Blink, Fade, Wave, Bounce, Typewriter, DiagonalSlide]

  /** `chooseStrategy`: Scroll for a text that does not fit; otherwise the
      value drawn from the uniform 0..5 distribution picks one of six. */
  function ChooseStrategy(fits: bool, roll: int): (s: Strategy)
    ensures s == Scroll <==> !fits
    ensures fits && 0 <= roll < |FittingStrategies| ==> s == FittingStrategies[roll]
  {
    if !fits then Scroll
    else
      match roll
      case 0 => Blink
      case 1 => Fade
      case 2 => Wave
      case 3 => Bounce
      case 4 => Typewriter
      case 5 => DiagonalSlide
      case _ => Blink
  }

  /** With a uniform draw from 0..5 every non-scroll strategy is equally
      likely: each one is selected by exactly one value. */
  lemma ChooseStrategyIsUniform(s: Strategy)
    requires s != Scroll
    ensures exists roll | 0 <= roll < 6 :: ChooseStrategy(true, roll) == s
    ensures forall a, b | 0 <= a < 6 && 0 <= b < 6 ::
      ChooseStrategy(true, a) == s && ChooseStrategy(true, b) == s ==> a == b
  {
    match s
    case Blink => assert ChooseStrategy(true, 0) == s;
    case Fade => assert ChooseStrategy(true, 1) == s;
    case Wave => assert ChooseStrategy(true, 2) == s;
    case Bounce => assert ChooseStrategy(true, 3) == s;
    case Typewriter => assert ChooseStrategy(true, 4) == s;
    case DiagonalSlide => assert ChooseStrategy(true, 5) == s;
  }

  /** Everything a `render` call reads: canvas and font dimensions, the
      text, the row offset `y`, the colour and the speed in milliseconds. */
  datatype Scene = Scene(
    width: nat, height: int, baseline: int, fontHeight: int,
    text: string, y: int, colour: Colour, speed: int)

  /** Outcomes of what the renderers take from outside: the random corner
      of the diagonal slide (false for the first of the row's two corners),
      the integer vertical wave offset of character `i` in frame `f`, and
      the interpolated coordinate between `a` and `b` at slide step `s`. */
  datatype Dice = Dice(
    secondCorner: bool,
    waveOffset: (int, int) -> int,
    interpolate: (int, int, int) -> int)

  /** The pixel row the text's baseline is drawn on. */
  function BaseRow(sc: Scene): int {
    sc.y + sc.baseline
  }

  /** The fit test the strategy choice is given: the text is narrower than
      the canvas less one pixel. `chooseStrategy` takes the flag from its
      caller; this is the test the legacy row loop applies. */
  predicate Fits(sc: Scene) {
    DrawLength(sc.text) < sc.width - 1
  }

  /** Wave and Typewriter centre with unsigned arithmetic, which is only
      meaningful when the text is no wider than the canvas. */
  predicate TextFits(sc: Scene) {
    DrawLength(sc.text) <= sc.width
  }

  function CentreX(sc: Scene): int {
    Centre(sc.width, DrawLength(sc.text))
  }

  function Max(a: int, b: int): int {
    if a >= b then a else b
  }

  // ---------------------------------------------------------------- Scroll

  /** One pass of the scroll loop: the left edge runs from `x` down to
      `last`; `prev` is where the text was drawn before, erased in black
      whenever it differs from the new position. */
  function ScrollPass(x: int, last: int, prev: int, row: int, colour: Colour, text: string): (r: seq<DrawOp>)
    ensures |r| == if x < last then 0 else 2 * (x - last + 1) - (if x == prev then 1 else 0)
    ensures forall k | 0 <= k < |r| ::
      r[k].Text? && r[k].y == row && r[k].text == text && (r[k].colour == colour || r[k].colour == Black)
    decreases x - last
  {
    if x < last then []
    else
      (if x != prev then [Text(prev, row, Black, text)] else [])
      + [Text(x, row, colour, text)]
      + ScrollPass(x - 1, last, x, row, colour, text)
  }

  /** The last left edge of a pass: the loop runs while `x > -len - 40`. */
  function ScrollLast(sc: Scene): int {
    -DrawLength(sc.text) - 39
  }

  /** Left edges visited by one pass. */
  function ScrollSpan(sc: Scene): nat {
    sc.width - ScrollLast(sc) + 1
  }

  /** `ScrollAnimation::render`: two passes; `prev_x` starts at the canvas
      width and carries over from the first pass to the second. Only the
      very first frame goes without an erase, and every operation draws
      the buffered text on the baseline, in the colour or in black. */
  function ScrollTrace(sc: Scene): (r: seq<DrawOp>)
    ensures |r| == 4 * ScrollSpan(sc) - 1
    ensures forall k | 0 <= k < |r| ::
      r[k].Text? && r[k].y == BaseRow(sc) && r[k].text == Truncated(sc.text)
      && (r[k].colour == sc.colour || r[k].colour == Black)
  {
    var buf := Truncated(sc.text);
    var last := ScrollLast(sc);
    var first := ScrollPass(sc.width, last, sc.width, BaseRow(sc), sc.colour, buf);
    var prev := if sc.width >= last then last else sc.width;
    first + ScrollPass(sc.width, last, prev, BaseRow(sc), sc.colour, buf)
  }

  /** A pass that starts away from `prev` alternates erase and draw. */
  lemma {:induction false} ScrollPassShape(x: int, last: int, prev: int, row: int, colour: Colour, text: string)
    requires prev != x && x >= last - 1
    ensures var r := ScrollPass(x, last, prev, row, colour, text);
      |r| == 2 * (x - last + 1)
      && forall k | 0 <= k <= x - last ::
        r[2 * k] == Text(if k == 0 then prev else x - k + 1, row, Black, text)
        && r[2 * k + 1] == Text(x - k, row, colour, text)
    decreases x - last
  {
    if x >= last {
      ScrollPassShape(x - 1, last, x, row, colour, text);
      var rest := ScrollPass(x - 1, last, x, row, colour, text);
      var r := ScrollPass(x, last, prev, row, colour, text);
      assert r == [Text(prev, row, Black, text), Text(x, row, colour, text)] + rest;
      forall k | 1 <= k <= x - last
        ensures r[2 * k] == Text(x - k + 1, row, Black, text)
        ensures r[2 * k + 1] == Text(x - k, row, colour, text)
      {
        assert r[2 * k] == rest[2 * (k - 1)];
        assert r[2 * k + 1] == rest[2 * (k - 1) + 1];
      }
    }
  }

  /** Left edge of frame `k` of two passes from `w` down to `last`. */
  function PassFrameX(w: int, last: int, k: int): int {
    var n := w - last + 1;
    if k < n then w - k else w - (k - n)
  }

  /** Two passes, the first starting where the text already is. */
  lemma {:induction false} TwoPassShape(w: int, last: int, row: int, colour: Colour, text: string)
    requires w > last
    ensures var r := [Text(w, row, colour, text)] + ScrollPass(w - 1, last, w, row, colour, text)
        + ScrollPass(w, last, last, row, colour, text);
      var n := w - last + 1;
      |r| == 4 * n - 1
      && forall k | 1 <= k < 2 * n ::
        r[2 * k - 1] == Text(PassFrameX(w, last, k - 1), row, Black, text)
        && r[2 * k] == Text(PassFrameX(w, last, k), row, colour, text)
  {
    var n := w - last + 1;
    var rest1 := ScrollPass(w - 1, last, w, row, colour, text);
    var pass2 := ScrollPass(w, last, last, row, colour, text);
    ScrollPassShape(w - 1, last, w, row, colour, text);
    ScrollPassShape(w, last, last, row, colour, text);
    var r1 := [Text(w, row, colour, text)] + rest1;
    var r := r1 + pass2;
    assert |r1| == 2 * n - 1;
    forall k | 1 <= k < n
      ensures r[2 * k - 1] == Text(PassFrameX(w, last, k - 1), row, Black, text)
      ensures r[2 * k] == Text(PassFrameX(w, last, k), row, colour, text)
    {
      assert r[2 * k - 1] == rest1[2 * (k - 1)];
      assert r[2 * k] == rest1[2 * (k - 1) + 1];
    }
    forall k | n <= k < 2 * n
      ensures r[2 * k - 1] == Text(PassFrameX(w, last, k - 1), row, Black, text)
      ensures r[2 * k] == Text(PassFrameX(w, last, k), row, colour, text)
    {
      var j := k - n;
      assert r[2 * k - 1] == pass2[2 * j];
      assert r[2 * k] == pass2[2 * j + 1];
    }
  }

  /** The first frame of the first pass is drawn without an erase, since
      `prev_x` starts out at the canvas width. */
  lemma ScrollOpening(sc: Scene)
    ensures var buf := Truncated(sc.text);
      ScrollTrace(sc)
      == [Text(sc.width, BaseRow(sc), sc.colour, buf)]
        + ScrollPass(sc.width - 1, ScrollLast(sc), sc.width, BaseRow(sc), sc.colour, buf)
        + ScrollPass(sc.width, ScrollLast(sc), ScrollLast(sc), BaseRow(sc), sc.colour, buf)
  {
  }

  /** The scroll trace frame by frame: the first frame is only drawn; every
      later frame first erases the previous frame's position in black. */
  lemma ScrollFrames(sc: Scene)
    ensures var r := ScrollTrace(sc);
      var n := ScrollSpan(sc);
      var buf := Truncated(sc.text);
      |r| == 4 * n - 1
      && r[0] == Text(sc.width, BaseRow(sc), sc.colour, buf)
      && forall k | 1 <= k < 2 * n ::
        r[2 * k - 1] == Text(PassFrameX(sc.width, ScrollLast(sc), k - 1), BaseRow(sc), Black, buf)
        && r[2 * k] == Text(PassFrameX(sc.width, ScrollLast(sc), k), BaseRow(sc), sc.colour, buf)
  {
    ScrollOpening(sc);
    TwoPassShape(sc.width, ScrollLast(sc), BaseRow(sc), sc.colour, Truncated(sc.text));
  }

  /** Each of the two passes draws the text at every left edge from the
      canvas width down to `-len - 39`, one pixel at a time. */
  lemma ScrollVisitsEveryColumn(sc: Scene, x: int)
    requires ScrollLast(sc) <= x <= sc.width
    ensures var r := ScrollTrace(sc);
      var d := Text(x, BaseRow(sc), sc.colour, Truncated(sc.text));
      var n := ScrollSpan(sc);
      2 * (n + sc.width - x) < |r|
      && r[2 * (sc.width - x)] == d
      && r[2 * (n + sc.width - x)] == d
  {
    ScrollFrames(sc);
  }

  /** Every frame but the last is erased, right before the next frame is
      drawn; the last frame lies wholly left of the canvas. */
  lemma ScrollLeavesBlank(sc: Scene)
    ensures LeavesBlank(ScrollTrace(sc))
    ensures var r := ScrollTrace(sc);
      r[|r| - 1] == Text(ScrollLast(sc), BaseRow(sc), sc.colour, Truncated(sc.text))
      && !MustErase(r[|r| - 1])
  {
    ScrollFrames(sc);
    var r := ScrollTrace(sc);
    var n := ScrollSpan(sc);
    assert r[|r| - 1] == r[2 * (2 * n - 1)];
    forall i | 0 <= i < |r|
      ensures MustErase(r[i]) ==> ErasedLater(r, i)
    {
      if i % 2 == 1 {
        var k := (i + 1) / 2;
        assert i == 2 * k - 1 && 1 <= k < 2 * n;
        assert r[2 * k - 1] == Text(PassFrameX(sc.width, ScrollLast(sc), k - 1), BaseRow(sc), Black, Truncated(sc.text));
      } else if i < |r| - 1 {
        var k := i / 2;
        assert i == 2 * k && k + 1 < 2 * n;
        assert r[i].x == PassFrameX(sc.width, ScrollLast(sc), k);
        assert r[2 * (k + 1) - 1] == EraseOf(r[i]);
        assert ErasedLater(r, i);
      }
    }
  }

  // ----------------------------------------------------------------- Blink

  /** `BlinkAnimation::render`: six on/off pairs at the centred position. */
  function BlinkTrace(sc: Scene): (r: seq<DrawOp>)
    ensures |r| == 12
    ensures forall k | 0 <= k < 12 ::
      r[k] == Text(CentreX(sc), BaseRow(sc), if k % 2 == 0 then sc.colour else Black, Truncated(sc.text))
  {
    var lit := Text(CentreX(sc), BaseRow(sc), sc.colour, Truncated(sc.text));
    var lits := seq(6, _ => lit);
    var r := Flash(lits);
    forall k | 0 <= k < 12
      ensures r[k] == Text(CentreX(sc), BaseRow(sc), if k % 2 == 0 then sc.colour else Black, Truncated(sc.text))
    {
      var h := k / 2;
      assert lits[h] == lit;
      assert k == 2 * h + k % 2;
    }
    r
  }

  lemma BlinkLeavesBlank(sc: Scene)
    ensures LeavesBlank(BlinkTrace(sc))
  {
    FlashLeavesBlank(seq(6, _ => Text(CentreX(sc), BaseRow(sc), sc.colour, Truncated(sc.text))));
  }

  // ------------------------------------------------------------------ Fade

  /** One component at brightness `step` tenths: `v * step / 10`. */
  function Scale(v: Byte, step: int): (s: Byte)
    requires 0 <= step <= 10
    ensures s <= v
    ensures step == 10 ==> s == v
    ensures step == 0 ==> s == 0
  {
    assert v * step <= v * 10;
    v * step / 10
  }

  /** Fading never gets brighter when the step goes down. */
  lemma ScaleMonotone(v: Byte, s: int, t: int)
    requires 0 <= s <= t <= 10
    ensures Scale(v, s) <= Scale(v, t)
  {
    assert v * s <= v * t;
  }

  /** The colour of the fade at `step` tenths of full brightness. */
  function FadeShade(c: Colour, step: int): (f: Colour)
    requires 0 <= step <= 10
    ensures f.r <= c.r && f.g <= c.g && f.b <= c.b
    ensures step == 10 ==> f == c
    ensures step == 0 ==> f == Black
  {
    Colour(Scale(c.r, step), Scale(c.g, step), Scale(c.b, step))
  }

  /** Number of fade cycles: enough 22-step cycles to fill ten seconds at
      `speed` milliseconds per step, and never none. */
  function FadeCycles(speed: int): (n: nat)
    ensures n >= 1
    ensures 1 <= speed && 22 * speed <= 10000 ==> n * (22 * speed) <= 10000 < (n + 1) * (22 * speed)
    ensures 22 * speed > 10000 ==> n == 1
    ensures speed <= 0 ==> n == 10000
  {
    var cycle := Max(1, 22 * speed);
    Max(1, 10000 / cycle)
  }

  /** Brightness step of position `j` within a cycle: 0..10, then 10..0. */
  function FadeStep(j: int): int {
    if j <= 10 then j else 21 - j
  }

  /** One cycle of the fade: the ramp up, then the ramp down. */
  function FadeCycle(x: int, row: int, c: Colour, text: string): (r: seq<DrawOp>)
    ensures |r| == 22
    ensures forall j | 0 <= j < 22 :: 0 <= FadeStep(j) <= 10 && r[j] == Text(x, row, FadeShade(c, FadeStep(j)), text)
  {
    seq(11, s requires 0 <= s < 11 => Text(x, row, FadeShade(c, s), text))
    + seq(11, s requires 0 <= s < 11 => Text(x, row, FadeShade(c, 10 - s), text))
  }

  function Cycles(n: nat, cycle: seq<DrawOp>): (r: seq<DrawOp>)
    requires |cycle| == 22
    ensures |r| == 22 * n
    ensures forall k | 0 <= k < |r| :: r[k] == cycle[k % 22]
  {
    if n == 0 then []
    else
      var rest := Cycles(n - 1, cycle);
      assert forall k | 22 <= k < 22 * n :: (k - 22) % 22 == k % 22;
      cycle + rest
  }

  /** `FadeAnimation::render`: the fade draws only at the centred position,
      with brightness following 0..10 then 10..0 in every 22-draw cycle. */
  function FadeTrace(sc: Scene): (r: seq<DrawOp>)
    ensures |r| == 22 * FadeCycles(sc.speed)
    ensures forall k | 0 <= k < |r| ::
      r[k] == Text(CentreX(sc), BaseRow(sc), FadeShade(sc.colour, FadeStep(k % 22)), Truncated(sc.text))
  {
    Cycles(FadeCycles(sc.speed), FadeCycle(CentreX(sc), BaseRow(sc), sc.colour, Truncated(sc.text)))
  }

  /** The fade ends on a black draw of the text at the centre. */
  lemma FadeEndsBlack(sc: Scene)
    ensures var r := FadeTrace(sc);
      r[|r| - 1] == Text(CentreX(sc), BaseRow(sc), Black, Truncated(sc.text))
  {
    var r := FadeTrace(sc);
    assert (|r| - 1) % 22 == 21;
  }

  lemma FadeLeavesBlank(sc: Scene)
    ensures LeavesBlank(FadeTrace(sc))
  {
    FadeEndsBlack(sc);
    var r := FadeTrace(sc);
    var off := Text(CentreX(sc), BaseRow(sc), Black, Truncated(sc.text));
    forall i | 0 <= i < |r|
      ensures MustErase(r[i]) ==> ErasedLater(r, i)
    {
      var shade := FadeShade(sc.colour, FadeStep(i % 22));
      assert r[i] == Text(CentreX(sc), BaseRow(sc), shade, Truncated(sc.text));
      assert EraseOf(r[i]) == off;
      if i < |r| - 1 {
        assert r[|r| - 1] == off;
      }
    }
  }

  // ------------------------------------------------------------------ Wave

  /** Frames of the wave: ten seconds' worth at `speed`, and at least 32. */
  function WaveFrameCount(speed: int): (n: nat)
    ensures n >= 32 && n >= 10000 / Max(1, speed)
    ensures n == 32 || n == 10000 / Max(1, speed)
    ensures 1 <= speed ==> n * speed <= Max(32 * speed, 10000)
  {
    Max(32, 10000 / Max(1, speed))
  }

  /** One wave frame: each character drawn alone, 9 pixels apart, lifted
      by that character's offset in this frame. */
  function WaveFrame(sc: Scene, dice: Dice, f: int): (r: seq<DrawOp>)
    ensures |r| == |sc.text|
    ensures forall i | 0 <= i < |sc.text| ::
      r[i].Text? && r[i].x == CentreX(sc) + CharAdvance * i && r[i].text == [sc.text[i]] && r[i].colour == sc.colour
  {
    seq(|sc.text|, i requires 0 <= i < |sc.text| =>
      Text(CentreX(sc) + CharAdvance * i, BaseRow(sc) + dice.waveOffset(f, i), sc.colour, [sc.text[i]]))
  }

  function Erases(ops: seq<DrawOp>): (r: seq<DrawOp>)
    ensures |r| == |ops|
    ensures forall i | 0 <= i < |ops| :: r[i] == EraseOf(ops[i])
  {
    seq(|ops|, i requires 0 <= i < |ops| => EraseOf(ops[i]))
  }

  /** Every operation of the wave draws a single character of the text,
      in the colour or in black, inside the text's centred span. */
  predicate WaveOp(sc: Scene, op: DrawOp) {
    op.Text? && |op.text| == 1 && op.text[0] in sc.text
    && (op.colour == sc.colour || op.colour == Black)
    && CentreX(sc) <= op.x < CentreX(sc) + DrawLength(sc.text)
  }

  /** Frames `f` up to `frames`: draw every character, then erase them. */
  function WaveFrames(sc: Scene, dice: Dice, f: int, frames: int): (r: seq<DrawOp>)
    ensures forall k | 0 <= k < |r| :: WaveOp(sc, r[k])
    decreases frames - f
  {
    if f >= frames then []
    else
      var frame := WaveFrame(sc, dice, f);
      var rest := WaveFrames(sc, dice, f + 1, frames);
      var r := frame + Erases(frame) + rest;
      assert forall k | 0 <= k < |frame| :: r[k] == frame[k] && r[|frame| + k] == EraseOf(frame[k]);
      assert forall k | 0 <= k < |rest| :: r[2 * |frame| + k] == rest[k];
      r
  }

  /** `WaveAnimation::render`: only single characters of the text, each
      inside the text's centred span. */
  function WaveTrace(sc: Scene, dice: Dice): (r: seq<DrawOp>)
    requires TextFits(sc)
    ensures forall k | 0 <= k < |r| :: WaveOp(sc, r[k])
  {
    WaveFrames(sc, dice, 0, WaveFrameCount(sc.speed))
  }

  /** A frame followed by its erases leaves the row blank. */
  lemma FrameThenErasesLeavesBlank(frame: seq<DrawOp>)
    ensures LeavesBlank(frame + Erases(frame))
  {
    var r := frame + Erases(frame);
    forall i | 0 <= i < |r|
      ensures MustErase(r[i]) ==> ErasedLater(r, i)
    {
      if i < |frame| {
        assert r[i + |frame|] == EraseOf(r[i]);
      } else {
        assert r[i] == EraseOf(frame[i - |frame|]);
      }
    }
  }

  lemma {:induction false} WaveFramesShape(sc: Scene, dice: Dice, f: int, frames: int)
    ensures LeavesBlank(WaveFrames(sc, dice, f, frames))
    ensures |WaveFrames(sc, dice, f, frames)| == if f >= frames then 0 else (frames - f) * (2 * |sc.text|)
    decreases frames - f
  {
    if f < frames {
      var frame := WaveFrame(sc, dice, f);
      WaveFramesShape(sc, dice, f + 1, frames);
      FrameThenErasesLeavesBlank(frame);
      LeavesBlankAppend(frame + Erases(frame), WaveFrames(sc, dice, f + 1, frames));
      assert (frames - f) * (2 * |sc.text|) == 2 * |sc.text| + (frames - (f + 1)) * (2 * |sc.text|);
    }
  }

  /** Every frame of the wave erases each character it drew, so the wave
      issues exactly one draw and one erase per character and frame. */
  lemma WaveLeavesBlank(sc: Scene, dice: Dice)
    requires TextFits(sc)
    ensures LeavesBlank(WaveTrace(sc, dice))
    ensures |WaveTrace(sc, dice)| == WaveFrameCount(sc.speed) * (2 * |sc.text|)
  {
    WaveFramesShape(sc, dice, 0, WaveFrameCount(sc.speed));
  }

  // ---------------------------------------------------------------- Bounce

  /** Position and horizontal step of the bouncing text. */
  datatype Motion = Motion(x: int, dx: int)

  /** The move after a frame: step by `dx`, then turn round when the new
      position reaches either bound. */
  function BounceStep(m: Motion, maxX: int): (r: Motion)
    ensures r.x == m.x + m.dx
    ensures r.x <= 0 || r.x >= maxX ==> r.dx == -m.dx
    ensures 0 < r.x < maxX ==> r.dx == m.dx
  {
    var x := m.x + m.dx;
    Motion(x, if x <= 0 || x >= maxX then -m.dx else m.dx)
  }

  /** Motions at the start of `n` consecutive frames. */
  function BounceMotions(m: Motion, maxX: int, n: nat): (r: seq<Motion>)
    ensures |r| == n
    ensures n > 0 ==> r[0] == m
    decreases n
  {
    if n == 0 then [] else [m] + BounceMotions(BounceStep(m, maxX), maxX, n - 1)
  }

  /** Rightmost left edge at which the text still fits. */
  function BounceMaxX(sc: Scene): int {
    sc.width - DrawLength(sc.text)
  }

  /** Frames of the bounce: a full traversal there and back, or ten seconds'
      worth at `speed`, whichever is more. */
  function BounceFrameCount(sc: Scene): (n: nat)
    ensures n >= 2 * BounceMaxX(sc) && n >= 10000 / Max(1, sc.speed)
    ensures n == 2 * BounceMaxX(sc) || n == 10000 / Max(1, sc.speed)
  {
    Max(2 * BounceMaxX(sc), 10000 / Max(1, sc.speed))
  }

  /** The motions of the bounce's frames: one per frame, from the left edge
      moving right. */
  function BouncePath(sc: Scene): (r: seq<Motion>)
    ensures |r| == BounceFrameCount(sc)
    ensures |r| > 0 ==> r[0] == Motion(0, 2)
  {
    BounceMotions(Motion(0, 2), BounceMaxX(sc), BounceFrameCount(sc))
  }

  function Lefts(ms: seq<Motion>): (xs: seq<int>)
    ensures |xs| == |ms|
    ensures forall k | 0 <= k < |ms| :: xs[k] == ms[k].x
  {
    seq(|ms|, k requires 0 <= k < |ms| => ms[k].x)
  }

  /** `BounceAnimation::render`: each frame draws and erases the text at
      the current position, then moves. */
  function BounceTrace(sc: Scene): (r: seq<DrawOp>)
    ensures |r| == 2 * BounceFrameCount(sc)
    ensures forall k | 0 <= k < BounceFrameCount(sc) ::
      r[2 * k] == Text(BouncePath(sc)[k].x, BaseRow(sc), sc.colour, Truncated(sc.text))
      && r[2 * k + 1] == EraseOf(r[2 * k])
  {
    Flash(TextsAt(Lefts(BouncePath(sc)), BaseRow(sc), sc.colour, Truncated(sc.text)))
  }

  /** Consecutive motions of the path are one `BounceStep` apart. */
  lemma {:induction false} BounceMotionsFollowStep(m: Motion, maxX: int, n: nat)
    ensures forall k | 0 <= k < n - 1 ::
      BounceMotions(m, maxX, n)[k + 1] == BounceStep(BounceMotions(m, maxX, n)[k], maxX)
    decreases n
  {
    if n > 0 {
      BounceMotionsFollowStep(BounceStep(m, maxX), maxX, n - 1);
      var rest := BounceMotions(BounceStep(m, maxX), maxX, n - 1);
      assert forall j | 0 <= j < n - 2 :: rest[j + 1] == BounceStep(rest[j], maxX);
    }
  }

  /** Frame by frame the text moves exactly two pixels and turns round
      exactly when the new position is at or beyond either bound. */
  lemma BounceMoves(sc: Scene)
    ensures var ms := BouncePath(sc);
      var maxX := BounceMaxX(sc);
      |ms| == BounceFrameCount(sc)
      && (|ms| > 0 ==> ms[0] == Motion(0, 2))
      && forall k | 0 <= k < |ms| - 1 ::
        (ms[k].dx == 2 || ms[k].dx == -2)
        && ms[k + 1].x == ms[k].x + ms[k].dx
        && (ms[k + 1].dx == -ms[k].dx <==> ms[k + 1].x <= 0 || ms[k + 1].x >= maxX)
  {
    var ms := BouncePath(sc);
    var maxX := BounceMaxX(sc);
    BounceMotionsFollowStep(Motion(0, 2), maxX, BounceFrameCount(sc));
    forall k | 0 <= k < |ms|
      ensures ms[k].dx == 2 || ms[k].dx == -2
    {
      BounceDirectionStaysTwo(ms, maxX, k);
    }
  }

  lemma {:induction false} BounceDirectionStaysTwo(ms: seq<Motion>, maxX: int, k: int)
    requires |ms| > 0 && ms[0].dx == 2
    requires forall j | 0 <= j < |ms| - 1 :: ms[j + 1] == BounceStep(ms[j], maxX)
    requires 0 <= k < |ms|
    ensures ms[k].dx == 2 || ms[k].dx == -2
    decreases k
  {
    if k > 0 {
      BounceDirectionStaysTwo(ms, maxX, k - 1);
      assert ms[k] == BounceStep(ms[k - 1], maxX);
    }
  }

  /** Where a frame may start when the text fits: an even position inside
      the lane, moving right below `maxX` or left above 0. */
  predicate InLane(m: Motion, maxX: int) {
    m.x % 2 == 0
    && ((m.dx == 2 && 0 <= m.x < maxX) || (m.dx == -2 && 0 < m.x <= maxX + 1))
  }

  lemma BounceStepStaysInLane(m: Motion, maxX: int)
    requires maxX >= 1 && InLane(m, maxX)
    ensures InLane(BounceStep(m, maxX), maxX)
  {
  }

  lemma {:induction false} BounceLaneHolds(ms: seq<Motion>, maxX: int, k: int)
    requires maxX >= 1 && |ms| > 0 && InLane(ms[0], maxX)
    requires forall j | 0 <= j < |ms| - 1 :: ms[j + 1] == BounceStep(ms[j], maxX)
    requires 0 <= k < |ms|
    ensures InLane(ms[k], maxX)
    decreases k
  {
    if k > 0 {
      BounceLaneHolds(ms, maxX, k - 1);
      BounceStepStaysInLane(ms[k - 1], maxX);
    }
  }

  /** When the text is narrower than the canvas the bounce never leaves it
      on the left and overshoots the right bound by at most one pixel. */
  lemma BounceStaysOnCanvas(sc: Scene)
    requires BounceMaxX(sc) >= 1
    ensures forall m | m in BouncePath(sc) :: 0 <= m.x <= BounceMaxX(sc) + 1
  {
    var ms := BouncePath(sc);
    var maxX := BounceMaxX(sc);
    if |ms| > 0 {
      BounceMotionsFollowStep(Motion(0, 2), maxX, BounceFrameCount(sc));
      forall k | 0 <= k < |ms|
        ensures 0 <= ms[k].x <= maxX + 1
      {
        BounceLaneHolds(ms, maxX, k);
      }
    }
  }

  lemma BounceLeavesBlank(sc: Scene)
    ensures LeavesBlank(BounceTrace(sc))
  {
    FlashLeavesBlank(TextsAt(Lefts(BouncePath(sc)), BaseRow(sc), sc.colour, Truncated(sc.text)));
  }

  // ------------------------------------------------------------ Typewriter

  /** `TypewriterAnimation::render`: each longer prefix drawn and erased,
      then the whole text drawn and erased once more. */
  function TypewriterTrace(sc: Scene): (r: seq<DrawOp>)
    requires TextFits(sc)
    ensures |r| == 2 * |sc.text| + 2
    ensures forall i | 0 <= i < |sc.text| ::
      r[2 * i] == Text(CentreX(sc), BaseRow(sc), sc.colour, sc.text[..i + 1])
      && r[2 * i + 1] == Text(CentreX(sc), BaseRow(sc), Black, sc.text[..i + 1])
    ensures r[2 * |sc.text|] == Text(CentreX(sc), BaseRow(sc), sc.colour, sc.text)
    ensures r[2 * |sc.text| + 1] == Text(CentreX(sc), BaseRow(sc), Black, sc.text)
  {
    var t := sc.text;
    var prefixes := seq(|t|, i requires 0 <= i < |t| => Text(CentreX(sc), BaseRow(sc), sc.colour, t[..i + 1]));
    var r := Flash(prefixes) + Flash([Text(CentreX(sc), BaseRow(sc), sc.colour, t)]);
    assert r[2 * |t|] == Flash([Text(CentreX(sc), BaseRow(sc), sc.colour, t)])[0];
    r
  }

  /** The typed prefixes grow one character at a time up to the full text. */
  lemma TypewriterPrefixesGrow(sc: Scene, i: int, j: int)
    requires TextFits(sc) && 0 <= i < j < |sc.text|
    ensures var r := TypewriterTrace(sc);
      |r[2 * i].text| == i + 1 && r[2 * i].text == r[2 * j].text[..i + 1]
      && r[2 * (|sc.text| - 1)].text == sc.text
  {
  }

  lemma TypewriterLeavesBlank(sc: Scene)
    requires TextFits(sc)
    ensures LeavesBlank(TypewriterTrace(sc))
  {
    var t := sc.text;
    var prefixes := seq(|t|, i requires 0 <= i < |t| => Text(CentreX(sc), BaseRow(sc), sc.colour, t[..i + 1]));
    FlashLeavesBlank(prefixes);
    FlashLeavesBlank([Text(CentreX(sc), BaseRow(sc), sc.colour, t)]);
    LeavesBlankAppend(Flash(prefixes), Flash([Text(CentreX(sc), BaseRow(sc), sc.colour, t)]));
  }

  // --------------------------------------------------------- DiagonalSlide

  /** The corner the slide starts from: 0 top-left, 1 top-right (top row,
      `y == 0`), 2 bottom-left, 3 bottom-right (any other row). */
  function SlideDirection(y: int, secondCorner: bool): (d: int)
    ensures y == 0 ==> d == 0 || d == 1
    ensures y != 0 ==> d == 2 || d == 3
    ensures d % 2 == 1 <==> secondCorner
  {
    if y == 0 then (if secondCorner then 1 else 0)
    else (if secondCorner then 3 else 2)
  }

  /** Starting point of the slide for a direction: directions 1 and 3
      start at the right edge, the others a text's width left of the
      canvas; directions 2 and 3 start one font height below the canvas,
      the others one font height above it. */
  function SlideStart(sc: Scene, direction: int): (p: (int, int))
    ensures p.0 == if direction == 1 || direction == 3 then sc.width else -DrawLength(sc.text)
    ensures p.1 == if direction == 2 || direction == 3 then sc.height + sc.fontHeight else -sc.fontHeight
  {
    var len := DrawLength(sc.text);
    match direction
    case 0 => (-len, -sc.fontHeight)
    case 1 => (sc.width, -sc.fontHeight)
    case 2 => (-len, sc.height + sc.fontHeight)
    case 3 => (sc.width, sc.height + sc.fontHeight)
    case _ => (-len, -sc.fontHeight)
  }

  /** The slide starts one font height above the canvas on the top row and
      one below it otherwise, just off the left edge or at the right edge. */
  lemma SlideStartsOffCanvas(sc: Scene, secondCorner: bool)
    ensures var (sx, sy) := SlideStart(sc, SlideDirection(sc.y, secondCorner));
      (sc.y == 0 ==> sy == -sc.fontHeight)
      && (sc.y != 0 ==> sy == sc.height + sc.fontHeight)
      && sx == (if secondCorner then sc.width else -DrawLength(sc.text))
  {
  }

  /** `DiagonalSlideAnimation::render`: 21 interpolated frames (steps 0 to
      20), each drawn and erased, then the centred frame drawn and erased. */
  function SlideTrace(sc: Scene, dice: Dice): (r: seq<DrawOp>)
    ensures |r| == 44
    ensures forall s | 0 <= s < 22 :: r[2 * s + 1] == EraseOf(r[2 * s]) && r[2 * s].colour == sc.colour
    ensures r[42] == Text(CentreX(sc), BaseRow(sc), sc.colour, sc.text)
  {
    var (sx, sy) := SlideStart(sc, SlideDirection(sc.y, dice.secondCorner));
    var fx := CentreX(sc);
    var fy := BaseRow(sc);
    var steps := seq(21, s requires 0 <= s < 21 =>
      Text(dice.interpolate(sx, fx, s), dice.interpolate(sy, fy, s), sc.colour, sc.text));
    var r := Flash(steps) + Flash([Text(fx, fy, sc.colour, sc.text)]);
    assert r[42] == Flash([Text(fx, fy, sc.colour, sc.text)])[0];
    assert r[43] == Flash([Text(fx, fy, sc.colour, sc.text)])[1];
    r
  }

  lemma SlideLeavesBlank(sc: Scene, dice: Dice)
    ensures LeavesBlank(SlideTrace(sc, dice))
  {
    var r := SlideTrace(sc, dice);
    forall i | 0 <= i < |r|
      ensures MustErase(r[i]) ==> ErasedLater(r, i)
    {
      var s := i / 2;
      if i % 2 == 0 {
        assert i == 2 * s;
        assert r[i + 1] == EraseOf(r[i]);
      } else {
        assert r[i] == EraseOf(r[2 * s]);
      }
    }
  }

  // -------------------------------------------------------------- Dispatch

  /** The draw operations `render` issues for a strategy. Every strategy
      leaves its row blank when it returns: each coloured draw is erased
      later, except Scroll's final frame, which lies wholly off the left
      edge. */
  function Render(s: Strategy, sc: Scene, dice: Dice): (r: seq<DrawOp>)
    requires s == Wave || s == Typewriter ==> TextFits(sc)
    ensures LeavesBlank(r)
    ensures s == Scroll ==> r == ScrollTrace(sc)
    ensures s == Blink ==> r == BlinkTrace(sc)
    ensures s == Fade ==> r == FadeTrace(sc)
    ensures s == Wave ==> r == WaveTrace(sc, dice)
    ensures s == Bounce ==> r == BounceTrace(sc)
    ensures s == Typewriter ==> r == TypewriterTrace(sc)
    ensures s == DiagonalSlide ==> r == SlideTrace(sc, dice)
  {
    match s
    case Scroll => ScrollLeavesBlank(sc); ScrollTrace(sc)
    case Blink => BlinkLeavesBlank(sc); BlinkTrace(sc)
    case Fade => FadeLeavesBlank(sc); FadeTrace(sc)
    case Wave => WaveLeavesBlank(sc, dice); WaveTrace(sc, dice)
    case Bounce => BounceLeavesBlank(sc); BounceTrace(sc)
    case Typewriter => TypewriterLeavesBlank(sc); TypewriterTrace(sc)
    case DiagonalSlide => SlideLeavesBlank(sc, dice); SlideTrace(sc, dice)
  }

  /** Choosing by the fit test and rendering: whatever the generator
      yields, the choice is one `render` can handle and the row is left
      blank. */
  function Present(sc: Scene, roll: int, dice: Dice): (r: seq<DrawOp>)
    ensures !Fits(sc) ==> r == ScrollTrace(sc)
    ensures Fits(sc) && roll == 0 ==> r == BlinkTrace(sc)
    ensures Fits(sc) && roll == 1 ==> r == FadeTrace(sc)
    ensures Fits(sc) && roll == 2 ==> r == WaveTrace(sc, dice)
    ensures Fits(sc) && roll == 3 ==> r == BounceTrace(sc)
    ensures Fits(sc) && roll == 4 ==> r == TypewriterTrace(sc)
    ensures Fits(sc) && roll == 5 ==> r == SlideTrace(sc, dice)
    ensures LeavesBlank(r)
  {
    Render(ChooseStrategy(Fits(sc), roll), sc, dice)
  }
}

=== FILE: draw.dfy ===
/** What the renderers hand to the LED canvas, as data: every `DrawText`
    and `DrawLine` call becomes one `DrawOp`, and erasing is drawing the same
    thing again in black. Geometry follows the source's approximation of a
    fixed 9-pixel advance per character. */
module Drawing {

  type Byte = b: int | 0 <= b < 256

  datatype Colour = Colour(r: Byte, g: Byte, b: Byte)

  const Black := Colour(0, 0, 0)

  /** Horizontal pixels per character assumed by every width computation. */
  const CharAdvance := 9

  /** Characters that survive the copy into the renderers' 1024-byte buffer
      (`strncpy` then a terminating zero in the last byte). */
  const BufferChars := 1023

  datatype DrawOp =
    | Text(x: int, y: int, colour: Colour, text: string)
    | Line(x0: int, y0: int, x1: int, y1: int, colour: Colour)

  /** The same draw repeated in black. */
  function EraseOf(op: DrawOp): (e: DrawOp)
    ensures e.colour == Black
    ensures e.Text? <==> op.Text?
    ensures op.Text? ==> e.x == op.x && e.y == op.y && e.text == op.text
  {
    op.(colour := Black)
  }

  /** Approximate rendered width of a string. */
  function DrawLength(t: string): int {
    CharAdvance * |t|
  }

  /** The text a renderer actually hands to the canvas after copying it into
      its fixed buffer. */
  function Truncated(t: string): (r: string)
    ensures |r| <= BufferChars && |r| <= |t|
    ensures r == t[..|r|]
    ensures |t| <= BufferChars ==> r == t
    ensures |t| > BufferChars ==> |r| == BufferChars
  {
    if |t| <= BufferChars then t else t[..BufferChars]
  }

  /** C's `round(n / 2.0)`: exact halves go away from zero. */
  function HalfRounded(n: int): (r: int)
    ensures n % 2 == 0 ==> 2 * r == n
    ensures n % 2 == 1 && n > 0 ==> 2 * r == n + 1
    ensures n % 2 == 1 && n < 0 ==> 2 * r == n - 1
  {
    if n >= 0 then (n + 1) / 2 else -((-n + 1) / 2)
  }

  /** Left edge that centres a `len`-pixel wide text on a `width`-pixel
      row: the margins on the two sides differ by at most one pixel, and an
      odd surplus goes to the left when the text fits and to the right when
      it overflows. */
  function Centre(width: int, len: int): (x: int)
    ensures -1 <= x - (width - (x + len)) <= 1
    ensures width - len >= 0 ==> width - (x + len) <= x
    ensures width - len <= 0 ==> x <= width - (x + len)
  {
    HalfRounded(width - len)
  }

  /** The integers `hi, hi - 1, ..., lo`: a C loop
      `for (v = hi; v >= lo; --v)`. */
  function Countdown(hi: int, lo: int): (r: seq<int>)
    ensures |r| == if hi >= lo then hi - lo + 1 else 0
    ensures forall k | 0 <= k < |r| :: r[k] == hi - k
    decreases hi - lo
  {
    if hi < lo then [] else [hi] + Countdown(hi - 1, lo)
  }

  /** The integers `lo, lo + 1, ..., hi`: a C loop
      `for (v = lo; v <= hi; ++v)`. */
  function Countup(lo: int, hi: int): (r: seq<int>)
    ensures |r| == if hi >= lo then hi - lo + 1 else 0
    ensures forall k | 0 <= k < |r| :: r[k] == lo + k
    decreases hi - lo
  {
    if hi < lo then [] else [lo] + Countup(lo + 1, hi)
  }

  /** Each draw immediately followed by its own erase. */
  function Flash(draws: seq<DrawOp>): (r: seq<DrawOp>)
    ensures |r| == 2 * |draws|
    ensures forall k | 0 <= k < |draws| :: r[2 * k] == draws[k] && r[2 * k + 1] == EraseOf(draws[k])
  {
    if |draws| == 0 then []
    else
      var rest := Flash(draws[1..]);
      assert forall k | 1 <= k < |draws| :: draws[1..][k - 1] == draws[k];
      [draws[0], EraseOf(draws[0])] + rest
  }

  /** Text draws of `text` at each of the positions `xs` on row `y`. */
  function TextsAt(xs: seq<int>, y: int, colour: Colour, text: string): (r: seq<DrawOp>)
    ensures |r| == |xs|
    ensures forall k | 0 <= k < |xs| :: r[k] == Text(xs[k], y, colour, text)
  {
    seq(|xs|, k requires 0 <= k < |xs| => Text(xs[k], y, colour, text))
  }

  /** A draw that leaves coloured pixels the renderer has to clear again: it
      is not black, and it is not a text lying wholly left of the canvas. */
  predicate MustErase(op: DrawOp) {
    op.colour != Black && !(op.Text? && op.x + DrawLength(op.text) <= 0)
  }

  /** Some later operation of `ops` is the erase of `ops[i]`. */
  ghost predicate ErasedLater(ops: seq<DrawOp>, i: int)
    requires 0 <= i < |ops|
  {
    exists j | i < j < |ops| :: ops[j] == EraseOf(ops[i])
  }

  /** The trace leaves its region blank: every draw that must be cleared is
      followed, somewhere later, by its own erase. */
  ghost predicate LeavesBlank(ops: seq<DrawOp>) {
    forall i | 0 <= i < |ops| && MustErase(ops[i]) :: ErasedLater(ops, i)
  }

  /** Running two traces that each clean up after themselves one after the
      other cleans up too. */
  lemma LeavesBlankAppend(a: seq<DrawOp>, b: seq<DrawOp>)
    requires LeavesBlank(a) && LeavesBlank(b)
    ensures LeavesBlank(a + b)
  {
    var ab := a + b;
    forall i | 0 <= i < |ab| && MustErase(ab[i])
      ensures ErasedLater(ab, i)
    {
      if i < |a| {
        assert ab[i] == a[i];
        var j :| i < j < |a| && a[j] == EraseOf(a[i]);
        assert ab[j] == a[j];
      } else {
        assert ab[i] == b[i - |a|];
        var j :| i - |a| < j < |b| && b[j] == EraseOf(b[i - |a|]);
        assert ab[|a| + j] == b[j];
      }
    }
  }

  /** Draw-then-erase pairs leave the region blank. */
  lemma FlashLeavesBlank(draws: seq<DrawOp>)
    ensures LeavesBlank(Flash(draws))
  {
    var r := Flash(draws);
    forall i | 0 <= i < |r|
      ensures MustErase(r[i]) ==> ErasedLater(r, i)
    {
      var k := i / 2;
      if i % 2 == 1 {
        assert i == 2 * k + 1 && k < |draws|;
        assert r[i] == EraseOf(draws[k]);
      } else {
        assert i == 2 * k;
        assert r[i + 1] == EraseOf(r[i]);
      }
    }
  }
}

=== FILE: message_sources.dfy ===
/** Message assembly for one sign row (`MessageSources.cpp`): configuration
    lookup, the XML item lists, and `MessageAggregator::fetchAll`, which
    turns the row's feeds into display lines and appends its static lines.
    The file system, HTTP transport, XML parser and regular expression are
    parameters: a readability predicate, a loader outcome, a fetch response
    per URL, a parse outcome per body and a filter on titles. */
module MessageSources {
  import opened Trimming

  // ------------------------------------------------------ Configuration

  /** The directories tried, in order, for a configuration file. */
  const ConfigPrefixes: seq<string> :=
    ["Configs/", "./Configs/", "Debug/Configs/", "Release/Configs/", "/home/pi/"]

  /** Index of the first prefix, from `i` on, under which `name` is
      readable; `|ConfigPrefixes|` when there is none. */
  function FirstReadable(name: string, readable: string -> bool, i: nat): (r: nat)
    requires i <= |ConfigPrefixes|
    ensures i <= r <= |ConfigPrefixes|
    ensures r < |ConfigPrefixes| ==> readable(ConfigPrefixes[r] + name)
    ensures forall j | i <= j < r :: !readable(ConfigPrefixes[j] + name)
    decreases |ConfigPrefixes| - i
  {
    if i == |ConfigPrefixes| then i
    else if readable(ConfigPrefixes[i] + name) then i
    else FirstReadable(name, readable, i + 1)
  }

  /** `resolveConfigPath`: the first readable candidate `prefix + name`,
      or the bare name as a last resort. */
  function ResolveConfigPath(name: string, readable: string -> bool): (p: string)
    ensures
      (exists i | 0 <= i < |ConfigPrefixes| ::
         p == ConfigPrefixes[i] + name && readable(p)
         && forall j | 0 <= j < i :: !readable(ConfigPrefixes[j] + name))
      || (p == name && forall j | 0 <= j < |ConfigPrefixes| :: !readable(ConfigPrefixes[j] + name))
  {
    var i := FirstReadable(name, readable, 0);
    if i < |ConfigPrefixes| then ConfigPrefixes[i] + name else name
  }

  /** The candidate under the first prefix wins whenever it is readable,
      whatever else exists. */
  lemma ResolvePrefersFirstPrefix(name: string, readable: string -> bool)
    requires readable(ConfigPrefixes[0] + name)
    ensures ResolveConfigPath(name, readable) == "Configs/" + name
  {
  }

  // ------------------------------------------------------------ XML lists

  /** What loading an XML file yields: a failure, or the raw child value of
      every `item` element under the requested root, in document order. */
  datatype XmlLoad = LoadFailed | Loaded(values: seq<string>)

  /** `loadXmlItems`: nothing when the load fails, otherwise each item's
      value trimmed. */
  function LoadXmlItems(load: XmlLoad): (r: seq<string>)
    ensures load.LoadFailed? ==> r == []
    ensures load.Loaded? ==> |r| == |load.values|
    ensures load.Loaded? ==> forall i | 0 <= i < |r| :: r[i] == Trim(load.values[i])
  {
    match load
    case LoadFailed => []
    case Loaded(values) => seq(|values|, i requires 0 <= i < |values| => Trim(values[i]))
  }

  /** Every value a list load returns is already trimmed: a value with a
      non-space character has no space at either end. */
  lemma LoadedItemsAreTrimmed(load: XmlLoad)
    ensures forall v | v in LoadXmlItems(load) :: IsTrimmed(v)
    ensures forall v | v in LoadXmlItems(load) && !AllSpaces(v) :: v[0] != ' ' && v[|v| - 1] != ' '
  {
    var r := LoadXmlItems(load);
    forall v | v in r
      ensures IsTrimmed(v)
      ensures !AllSpaces(v) ==> v[0] != ' ' && v[|v| - 1] != ' '
    {
      var i :| 0 <= i < |r| && r[i] == v;
      TrimIdempotent(load.values[i]);
    }
  }

  /** The configuration files of a row: which paths are readable and what
      loading a path under a root and child element yields. */
  datatype Files = Files(readable: string -> bool, load: (string, string, string) -> XmlLoad)

  /** Items of the configuration file `name`, found by `resolveConfigPath`:
      none when the resolved file does not load, otherwise its values in
      document order, each trimmed. */
  function ConfigItems(files: Files, name: string, root: string, child: string): (r: seq<string>)
    ensures var load := files.load(ResolveConfigPath(name, files.readable), root, child);
      (load.LoadFailed? ==> r == [])
      && (load.Loaded? ==> |r| == |load.values| && forall i | 0 <= i < |r| :: r[i] == Trim(load.values[i]))
  {
    LoadXmlItems(files.load(ResolveConfigPath(name, files.readable), root, child))
  }

  /** `getFeedUrls`: `feeds/item/url` of TopFeeds.xml or BottomFeeds.xml. */
  function GetFeedUrls(position: string, files: Files): (r: seq<string>)
    ensures position == "top" ==> r == ConfigItems(files, "TopFeeds.xml", "feeds", "url")
    ensures position == "bottom" ==> r == ConfigItems(files, "BottomFeeds.xml", "feeds", "url")
    ensures position != "top" && position != "bottom" ==> r == []
  {
    if position == "top" then ConfigItems(files, "TopFeeds.xml", "feeds", "url")
    else if position == "bottom" then ConfigItems(files, "BottomFeeds.xml", "feeds", "url")
    else []
  }

  /** `getStaticLines`: `lines/item/text` of TopLines.xml or BottomLines.xml. */
  function GetStaticLines(position: string, files: Files): (r: seq<string>)
    ensures position == "top" ==> r == ConfigItems(files, "TopLines.xml", "lines", "text")
    ensures position == "bottom" ==> r == ConfigItems(files, "BottomLines.xml", "lines", "text")
    ensures position != "top" && position != "bottom" ==> r == []
  {
    if position == "top" then ConfigItems(files, "TopLines.xml", "lines", "text")
    else if position == "bottom" then ConfigItems(files, "BottomLines.xml", "lines", "text")
    else []
  }

  // ---------------------------------------------------------------- Feeds

  /** What the transport hands back for one URL: the body received and the
      error text, empty on success. */
  datatype Response = Response(body: string, err: string)

  /** What parsing a body as RSS yields: the parser's error description, or
      the titles of the `rss/channel/item` elements in document order. */
  datatype Parse = ParseFailed(description: string) | Channel(titles: seq<string>)

  /** The outside world of `fetchAll`: the response to the `k`-th URL of the
      list, and the parse of a body. */
  datatype Network = Network(fetch: (nat, string) -> Response, parse: string -> Parse)

  /** The four things that can happen to one URL, in the order they are
      checked. */
  datatype FeedOutcome =
    | TransportError(message: string)
    | EmptyBody
    | ParseError(description: string)
    | Items(titles: seq<string>)

  /** Classifies a response: the transport error wins over everything,
      then the empty body, then the parser's verdict. */
  function Outcome(resp: Response, parse: string -> Parse): (o: FeedOutcome)
    ensures o.TransportError? <==> resp.err != ""
    ensures o.TransportError? ==> o.message == resp.err
    ensures o.EmptyBody? <==> resp.err == "" && resp.body == ""
    ensures o.ParseError? <==> resp.err == "" && resp.body != "" && parse(resp.body).ParseFailed?
    ensures o.ParseError? ==> o.description == parse(resp.body).description
    ensures o.Items? ==> parse(resp.body) == Channel(o.titles)
  {
    if resp.err != "" then TransportError(resp.err)
    else if resp.body == "" then EmptyBody
    else match parse(resp.body)
      case ParseFailed(d) => ParseError(d)
      case Channel(ts) => Items(ts)
  }

  /** The lines one URL adds to the row. */
  function Contribution(url: string, o: FeedOutcome, filter: string -> string): (r: seq<string>)
    ensures !o.Items? ==> |r| == 1
    ensures o.Items? ==> |r| == |o.titles|
  {
    match o
    case TransportError(message) => ["[Feed Error] " + url + " - " + message]
    case EmptyBody => ["[Feed Error] " + url + " - Empty response"]
    case ParseError(description) => ["[Parse Error] " + url + " - " + description]
    case Items(titles) => seq(|titles|, i requires 0 <= i < |titles| => Trim(filter(titles[i])))
  }

  /** A failed URL leaves exactly one placeholder line; its opening label
      tells a transport failure or an empty body apart from a parse
      failure, and it ends with the failure's detail. */
  lemma FailurePlaceholders(url: string, o: FeedOutcome, filter: string -> string)
    requires !o.Items?
    ensures var r := Contribution(url, o, filter);
      |r| == 1
      && (o.TransportError? || o.EmptyBody? <==> |r[0]| >= 13 && r[0][..13] == "[Feed Error] ")
      && (o.ParseError? <==> |r[0]| >= 14 && r[0][..14] == "[Parse Error] ")
      && |DetailOf(o)| <= |r[0]| && r[0][|r[0]| - |DetailOf(o)|..] == DetailOf(o)
  {
    var r := Contribution(url, o, filter);
    var tag := if o.ParseError? then "[Parse Error] " else "[Feed Error] ";
    var head := tag + url + " - ";
    assert r[0] == head + DetailOf(o);
    assert r[0][..|tag|] == tag;
    assert r[0][|head|..] == DetailOf(o);
    assert "[Feed Error] "[1] != "[Parse Error] "[1];
  }

  /** The text after the URL in a failure placeholder. */
  function DetailOf(o: FeedOutcome): string
    requires !o.Items?
  {
    match o
    case TransportError(message) => message
    case EmptyBody => "Empty response"
    case ParseError(description) => description
  }

  /** A channel's lines are its titles, filtered first and trimmed after,
      one line per item in item order; an empty channel adds nothing. */
  lemma ItemLines(url: string, titles: seq<string>, filter: string -> string)
    ensures var r := Contribution(url, Items(titles), filter);
      |r| == |titles|
      && (forall i | 0 <= i < |r| :: r[i] == Trim(filter(titles[i])) && IsTrimmed(r[i]))
      && (titles == [] ==> r == [])
  {
    var r := Contribution(url, Items(titles), filter);
    forall i | 0 <= i < |r|
      ensures IsTrimmed(r[i])
    {
      TrimIdempotent(filter(titles[i]));
    }
  }

  /** A failure placeholder: a line opening with the feed or the parse
      error label. */
  predicate IsPlaceholder(line: string) {
    (|line| >= 13 && line[..13] == "[Feed Error] ") || (|line| >= 14 && line[..14] == "[Parse Error] ")
  }

  /** Every line is a failure placeholder or a trimmed title. */
  predicate FeedLines(lines: seq<string>) {
    forall k | 0 <= k < |lines| :: IsTrimmed(lines[k]) || IsPlaceholder(lines[k])
  }

  /** Every line one URL contributes is a placeholder or a trimmed title. */
  lemma ContributionLines(url: string, o: FeedOutcome, filter: string -> string)
    ensures FeedLines(Contribution(url, o, filter))
  {
    if o.Items? {
      ItemLines(url, o.titles, filter);
    } else {
      FailurePlaceholders(url, o, filter);
    }
  }

  /** The lines the `k`-th URL of the list contributes. */
  function ContributionAt(urls: seq<string>, k: nat, net: Network, filter: string -> string): seq<string>
    requires k < |urls|
  {
    Contribution(urls[k], Outcome(net.fetch(k, urls[k]), net.parse), filter)
  }

  /** The feed lines of the first `n` URLs, URL after URL: each one a
      failure placeholder or a filtered, trimmed title. */
  function Feeds(urls: seq<string>, n: nat, net: Network, filter: string -> string): (r: seq<string>)
    requires n <= |urls|
    ensures FeedLines(r)
    decreases n
  {
    if n == 0 then []
    else
      var before := Feeds(urls, n - 1, net, filter);
      var here := ContributionAt(urls, n - 1, net, filter);
      ContributionLines(urls[n - 1], Outcome(net.fetch(n - 1, urls[n - 1]), net.parse), filter);
      assert forall k | 0 <= k < |here| :: (before + here)[|before| + k] == here[k];
      before + here
  }

  /** The lines of fewer URLs are a prefix of the lines of more. */
  lemma {:induction false} FeedsPrefix(urls: seq<string>, k: nat, n: nat, net: Network, filter: string -> string)
    requires k <= n <= |urls|
    ensures Feeds(urls, k, net, filter) <= Feeds(urls, n, net, filter)
    decreases n - k
  {
    if k < n {
      FeedsPrefix(urls, k, n - 1, net, filter);
    }
  }

  /** Each URL's lines sit in one contiguous block, the blocks follow URL
      order, and a failing URL does not stop the ones after it: in the
      lines of all URLs, the block after the lines of the first `k` URLs is
      exactly what URL `k` contributes. */
  lemma FeedsBlock(urls: seq<string>, k: nat, net: Network, filter: string -> string)
    requires k < |urls|
    ensures var all := Feeds(urls, |urls|, net, filter);
      var lo := |Feeds(urls, k, net, filter)|;
      var hi := |Feeds(urls, k + 1, net, filter)|;
      lo <= hi <= |all| && all[lo..hi] == ContributionAt(urls, k, net, filter)
  {
    FeedsPrefix(urls, k + 1, |urls|, net, filter);
    var all := Feeds(urls, |urls|, net, filter);
    var before := Feeds(urls, k + 1, net, filter);
    assert all[..|before|] == before;
  }

  /** The body of `fetchAll`'s loop for one URL: a placeholder on
      failure, otherwise the filtered, trimmed title of every item. */
  method Contribute(url: string, resp: Response, parse: string -> Parse, filter: string -> string)
    returns (lines: seq<string>)
    ensures lines == Contribution(url, Outcome(resp, parse), filter)
  {
    if resp.err != "" {
      return ["[Feed Error] " + url + " - " + resp.err];
    }
    if resp.body == "" {
      return ["[Feed Error] " + url + " - Empty response"];
    }
    match parse(resp.body)
    case ParseFailed(d) =>
      return ["[Parse Error] " + url + " - " + d];
    case Channel(titles) =>
      lines := [];
      var j := 0;
      while j < |titles|
        invariant 0 <= j <= |titles|
        invariant lines == Contribution(url, Items(titles), filter)[..j]
      {
        lines := lines + [Trim(filter(titles[j]))];
        j := j + 1;
      }
  }

  /** The feed half of `fetchAll`: every URL in list order, a failure
      moving on to the next URL. */
  method FetchFeeds(urls: seq<string>, net: Network, filter: string -> string)
    returns (out: seq<string>)
    ensures out == Feeds(urls, |urls|, net, filter)
  {
    out := [];
    var i := 0;
    while i < |urls|
      invariant 0 <= i <= |urls|
      invariant out == Feeds(urls, i, net, filter)
    {
      var lines := Contribute(urls[i], net.fetch(i, urls[i]), net.parse, filter);
      out := out + lines;
      i := i + 1;
    }
  }

  /** `MessageAggregator::fetchAll`: the feed lines of every URL in order,
      then the static lines untouched. */
  method FetchAll(position: string, files: Files, net: Network, filter: string -> string)
    returns (out: seq<string>)
    ensures var urls := GetFeedUrls(position, files);
      out == Feeds(urls, |urls|, net, filter) + GetStaticLines(position, files)
  {
    var urls := GetFeedUrls(position, files);
    var feeds := FetchFeeds(urls, net, filter);
    out := feeds + GetStaticLines(position, files);
  }

  /** The static lines close `fetchAll`'s list exactly as the row's lines
      file holds them, trimmed but not filtered, whatever the feed lines
      before them are (so whatever the network returned and whatever the
      filter removes): one line per item of TopLines.xml or
      BottomLines.xml, nothing when that file does not load, and no lines
      at all for a position other than "top" or "bottom". */
  lemma StaticLinesFromFile(position: string, files: Files, feeds: seq<string>)
    ensures var out := feeds + GetStaticLines(position, files);
      var name := if position == "top" then "TopLines.xml" else "BottomLines.xml";
      var load := files.load(ResolveConfigPath(name, files.readable), "lines", "text");
      (position != "top" && position != "bottom" ==> out == feeds)
      && ((position == "top" || position == "bottom") && load.LoadFailed? ==> out == feeds)
      && ((position == "top" || position == "bottom") && load.Loaded? ==>
            |out| == |feeds| + |load.values|
            && forall i | 0 <= i < |load.values| :: out[|feeds| + i] == Trim(load.values[i]))
  {
    var statics := GetStaticLines(position, files);
    if position == "top" || position == "bottom" {
      var name := if position == "top" then "TopLines.xml" else "BottomLines.xml";
      assert statics == ConfigItems(files, name, "lines", "text");
      forall i | 0 <= i < |statics|
        ensures (feeds + statics)[|feeds| + i] == statics[i]
      {
      }
    }
  }

  /** A position other than "top" or "bottom" reads no URLs, so the whole
      of `fetchAll`'s list is empty. */
  lemma UnknownPositionYieldsNothing(position: string, files: Files, net: Network, filter: string -> string)
    requires position != "top" && position != "bottom"
    ensures var urls := GetFeedUrls(position, files);
      Feeds(urls, |urls|, net, filter) + GetStaticLines(position, files) == []
  {
  }
}

=== FILE: scroll_sign.dfy ===
/** The legacy row loop of ScrollSignTest.cpp (`displayFeeds`): every
    iteration possibly reloads the row's configuration, queues the feed
    titles and static lines, shuffles the queue and shows each title with
    a randomly chosen effect. Clock, files, network, regular expression
    and `rand` are parameters; the frames of each effect are draw
    operations as in the animation strategies. */
module ScrollSign {
  import opened Trimming
  import opened Drawing
  import opened MessageSources

  datatype Option<T> = None | Some(value: T)

  /** The two rows `main` starts a loop for. */
  datatype Row = Top | Bottom

  /** First pixel row of a sign row. */
  function RowY(row: Row): int {
    match row
    case Top => 0
    case Bottom => 16
  }

  /** Milliseconds per scroll step of a sign row. */
  function RowSpeed(row: Row): int {
    match row
    case Top => 11
    case Bottom => 14
  }

  // ------------------------------------------------------- Configuration

  /** The element whose `item` children hold the values: the document's
      root element whatever its name, or a root of the given name. */
  datatype Root = DocumentElement | Named(name: string)

  /** `getURLs`: the `url` of every item under the document element of
      TopFeeds.xml or BottomFeeds.xml, read from the working directory.
      The parse result is never tested, so `load` gives the items of the
      document as the parser leaves it, possibly cut short by a parse
      error; `LoadFailed` stands for a document with no items. */
  function GetUrls(row: Row, load: (string, Root, string) -> XmlLoad): (r: seq<string>)
    ensures var l := load(if row == Top then "TopFeeds.xml" else "BottomFeeds.xml", DocumentElement, "url");
      (l.LoadFailed? ==> r == [])
      && (l.Loaded? ==> |r| == |l.values| && forall i | 0 <= i < |r| :: r[i] == Trim(l.values[i]))
  {
    LoadXmlItems(load(if row == Top then "TopFeeds.xml" else "BottomFeeds.xml", DocumentElement, "url"))
  }

  /** `getStaticText`: the `text` of every item under `lines` in
      TopLines.xml or BottomLines.xml. As in `getURLs`, `load` gives the
      items of the document as the parser leaves it, possibly partial, and
      `LoadFailed` stands for a document with no items. */
  function GetStaticText(row: Row, load: (string, Root, string) -> XmlLoad): (r: seq<string>)
    ensures var l := load(if row == Top then "TopLines.xml" else "BottomLines.xml", Named("lines"), "text");
      (l.LoadFailed? ==> r == [])
      && (l.Loaded? ==> |r| == |l.values| && forall i | 0 <= i < |r| :: r[i] == Trim(l.values[i]))
  {
    LoadXmlItems(load(if row == Top then "TopLines.xml" else "BottomLines.xml", Named("lines"), "text"))
  }

  // --------------------------------------------------------------- Titles

  /** An RSS item as the loop reads it. */
  datatype Item = Item(title: string, description: string)

  /** The one feed whose items are shown with their description. */
  const HistoryUrl := "https://www.history.com/.rss/full/this-day-in-history"

  const HistoryLabel := "Today in History: "

  /** The queued text of one item of the feed at `url`, already trimmed. */
  function TitleEntry(url: string, item: Item, filter: string -> string): (e: string)
    ensures IsTrimmed(e)
  {
    var s := if url == HistoryUrl then HistoryLabel + filter(item.title) + " " + filter(item.description)
             else filter(item.title);
    TrimIdempotent(s);
    Trim(s)
  }

  /** A history entry is the label, the filtered title, a space and the
      filtered description, with trailing spaces cut; since the label opens
      with a letter nothing is cut at the front, so the entry always opens
      with the label up to its colon. Any other feed's entry is just its
      filtered, trimmed title. */
  lemma TitleEntryShape(url: string, item: Item, filter: string -> string)
    ensures url == HistoryUrl ==>
      var e := TitleEntry(url, item, filter);
      e == TrimRight(HistoryLabel + filter(item.title) + " " + filter(item.description))
      && |e| >= 17 && e[..17] == HistoryLabel[..17]
    ensures url != HistoryUrl ==> TitleEntry(url, item, filter) == Trim(filter(item.title))
  {
    if url == HistoryUrl {
      HistoryEntryShape(item, filter);
    }
  }

  /** The history case of `TitleEntryShape`. */
  lemma HistoryEntryShape(item: Item, filter: string -> string)
    ensures var e := TitleEntry(HistoryUrl, item, filter);
      e == TrimRight(HistoryLabel + filter(item.title) + " " + filter(item.description))
      && |e| >= 17 && e[..17] == HistoryLabel[..17]
  {
    var s := HistoryLabel + filter(item.title) + " " + filter(item.description);
    assert TitleEntry(HistoryUrl, item, filter) == Trim(s);
    LabelledText(filter(item.title), filter(item.description));
  }

  /** The label followed by any title and description, trimmed. */
  lemma LabelledText(title: string, description: string)
    ensures var t := Trim(HistoryLabel + title + " " + description);
      t == TrimRight(HistoryLabel + title + " " + description)
      && |t| >= 17 && t[..17] == HistoryLabel[..17]
  {
    var s := HistoryLabel + title + " " + description;
    assert s[..18] == HistoryLabel;
    LabelledTrim(s);
  }

  /** Trimming a text that opens with the history label cuts only at the
      right end, and never into the label up to its colon. */
  lemma LabelledTrim(s: string)
    requires |s| >= 18 && s[..18] == HistoryLabel
    ensures Trim(s) == TrimRight(s) && |Trim(s)| >= 17 && Trim(s)[..17] == HistoryLabel[..17]
  {
    assert HistoryLabel[0] == 'T' && HistoryLabel[16] == ':';
    assert s[0] == HistoryLabel[0] && s[16] == HistoryLabel[16];
    TrimKeepsFront(s);
    TrimKeepsHead(s, 16);
    assert s[..17] == HistoryLabel[..17];
  }

  /** The feed entries of the first `n` URLs: URL after URL, item after
      item, from the items the `k`-th URL's page yields; every entry is
      trimmed. */
  function FeedTitles(urls: seq<string>, n: nat, items: (nat, string) -> seq<Item>, filter: string -> string): (r: seq<string>)
    requires n <= |urls|
    ensures forall t | t in r :: IsTrimmed(t)
    decreases n
  {
    if n == 0 then []
    else
      var before := FeedTitles(urls, n - 1, items, filter);
      var block := Entries(urls[n - 1], items(n - 1, urls[n - 1]), filter);
      assert forall j | 0 <= j < |block| :: IsTrimmed(block[j]);
      before + block
  }

  /** The entries of one URL's page, one per item in order. */
  function Entries(url: string, its: seq<Item>, filter: string -> string): (r: seq<string>)
    ensures |r| == |its|
    ensures forall j | 0 <= j < |its| :: r[j] == TitleEntry(url, its[j], filter)
  {
    seq(|its|, j requires 0 <= j < |its| => TitleEntry(url, its[j], filter))
  }

  /** The feed entries of fewer URLs are a prefix of those of more. */
  lemma {:induction false} FeedTitlesPrefix(urls: seq<string>, k: nat, n: nat, items: (nat, string) -> seq<Item>,
                                            filter: string -> string)
    requires k <= n <= |urls|
    ensures FeedTitles(urls, k, items, filter) <= FeedTitles(urls, n, items, filter)
    decreases n - k
  {
    if k < n {
      FeedTitlesPrefix(urls, k, n - 1, items, filter);
    }
  }

  /** URL `k`'s entries sit right after those of the URLs before it, one
      per item of its page and in item order, whatever URLs follow. */
  lemma {:induction false} FeedTitlesBlock(urls: seq<string>, k: nat, n: nat, items: (nat, string) -> seq<Item>,
                        filter: string -> string)
    requires k < n <= |urls|
    ensures var all := FeedTitles(urls, n, items, filter);
      var lo := |FeedTitles(urls, k, items, filter)|;
      var block := Entries(urls[k], items(k, urls[k]), filter);
      lo + |block| <= |all| && all[lo..lo + |block|] == block
    decreases n
  {
    var before := FeedTitles(urls, k, items, filter);
    var block := Entries(urls[k], items(k, urls[k]), filter);
    FeedTitlesStep(urls, n, items, filter);
    if n == k + 1 {
      assert FeedTitles(urls, n, items, filter)[|before|..] == block;
    } else {
      FeedTitlesBlock(urls, k, n - 1, items, filter);
      SliceOfPrefix(FeedTitles(urls, n - 1, items, filter), Entries(urls[n - 1], items(n - 1, urls[n - 1]), filter),
                    |before|, |before| + |block|);
    }
  }

  /** Item `j` of URL `k`'s page gives the entry right after the first `j`
      entries of that URL, which follow the entries of the URLs before it. */
  lemma {:induction false} FeedTitlesAt(urls: seq<string>, k: nat, n: nat, items: (nat, string) -> seq<Item>,
                     filter: string -> string)
    requires k < n <= |urls|
    ensures var all := FeedTitles(urls, n, items, filter);
      var lo := |FeedTitles(urls, k, items, filter)|;
      var its := items(k, urls[k]);
      lo + |its| <= |all| && forall j | 0 <= j < |its| :: all[lo + j] == TitleEntry(urls[k], its[j], filter)
  {
    FeedTitlesBlock(urls, k, n, items, filter);
    EntriesAt(FeedTitles(urls, n, items, filter), |FeedTitles(urls, k, items, filter)|, urls[k], items(k, urls[k]), filter);
  }

  /** A slice holding one page's entries holds them item by item. */
  lemma EntriesAt(all: seq<string>, lo: int, url: string, its: seq<Item>, filter: string -> string)
    requires 0 <= lo && lo + |its| <= |all| && all[lo..lo + |its|] == Entries(url, its, filter)
    ensures forall j | 0 <= j < |its| :: all[lo + j] == TitleEntry(url, its[j], filter)
  {
    forall j | 0 <= j < |its|
      ensures all[lo + j] == TitleEntry(url, its[j], filter)
    {
      assert all[lo + j] == all[lo..lo + |its|][j];
    }
  }

  /** One more URL appends its page's entries. */
  lemma FeedTitlesStep(urls: seq<string>, n: nat, items: (nat, string) -> seq<Item>, filter: string -> string)
    requires 0 < n <= |urls|
    ensures FeedTitles(urls, n, items, filter)
         == FeedTitles(urls, n - 1, items, filter) + Entries(urls[n - 1], items(n - 1, urls[n - 1]), filter)
  {
  }

  /** A slice of `a` is also a slice of `a + b`. */
  lemma SliceOfPrefix<T>(a: seq<T>, b: seq<T>, lo: int, hi: int)
    requires 0 <= lo <= hi <= |a|
    ensures (a + b)[lo..hi] == a[lo..hi]
  {
  }

  /** Every line trimmed, order kept. */
  function Trimmed(lines: seq<string>): (r: seq<string>)
    ensures |r| == |lines|
    ensures forall i | 0 <= i < |r| :: r[i] == Trim(lines[i])
  {
    seq(|lines|, i requires 0 <= i < |lines| => Trim(lines[i]))
  }

  /** Trimmed lines are trimmed. */
  lemma TrimmedAreTrimmed(lines: seq<string>)
    ensures forall t | t in Trimmed(lines) :: IsTrimmed(t)
  {
    forall t | t in Trimmed(lines)
      ensures IsTrimmed(t)
    {
      var i :| 0 <= i < |lines| && Trimmed(lines)[i] == t;
      TrimIdempotent(lines[i]);
    }
  }

  /** The queue of one iteration before the shuffle: the titles kept from
      before, then the feed entries, then the static lines, then the event
      lines, the last two trimmed. Every queued text is trimmed when the
      kept titles are. */
  function Queue(kept: seq<string>, urls: seq<string>, lines: seq<string>, events: seq<string>,
                 items: (nat, string) -> seq<Item>, filter: string -> string): (r: seq<string>)
    ensures |r| == |kept| + |FeedTitles(urls, |urls|, items, filter)| + |lines| + |events|
    ensures r[..|kept|] == kept
    ensures var f := FeedTitles(urls, |urls|, items, filter);
      r[|kept|..|kept| + |f|] == f
    ensures var at := |kept| + |FeedTitles(urls, |urls|, items, filter)|;
      r[at..at + |lines|] == Trimmed(lines)
    ensures var at := |kept| + |FeedTitles(urls, |urls|, items, filter)| + |lines|;
      r[at..] == Trimmed(events)
    ensures (forall t | t in kept :: IsTrimmed(t)) ==> forall t | t in r :: IsTrimmed(t)
  {
    TrimmedAreTrimmed(lines);
    TrimmedAreTrimmed(events);
    var feeds := FeedTitles(urls, |urls|, items, filter);
    var r := kept + feeds + Trimmed(lines) + Trimmed(events);
    assert r[..|kept|] == kept;
    assert r[|kept|..|kept| + |feeds|] == feeds;
    assert r[|kept| + |feeds|..|kept| + |feeds| + |lines|] == Trimmed(lines);
    assert r[|kept| + |feeds| + |lines|..] == Trimmed(events);
    r
  }

  // -------------------------------------------------------------- Shuffle

  /** `a` with the elements at `i` and `j` exchanged. */
  function Swap<T>(a: seq<T>, i: nat, j: nat): (r: seq<T>)
    requires i < |a| && j < |a|
    ensures |r| == |a| && multiset(r) == multiset(a)
    ensures r[i] == a[j] && r[j] == a[i]
    ensures forall k | 0 <= k < |a| && k != i && k != j :: r[k] == a[k]
  {
    a[i := a[j]][j := a[i]]
  }

  /** `std::random_shuffle` from position `i` on: the element at each
      position is exchanged with the one at `rolls(i) % (i + 1)`. */
  function ShuffleFrom<T>(a: seq<T>, rolls: nat -> nat, i: nat): (r: seq<T>)
    requires i >= 1
    ensures |r| == |a| && multiset(r) == multiset(a)
    decreases |a| - i
  {
    if i >= |a| then a
    else ShuffleFrom(Swap(a, i, rolls(i) % (i + 1)), rolls, i + 1)
  }

  /** `std::random_shuffle` over the whole sequence. */
  function Shuffle<T>(a: seq<T>, rolls: nat -> nat): (r: seq<T>)
    ensures |r| == |a| && multiset(r) == multiset(a)
  {
    ShuffleFrom(a, rolls, 1)
  }

  /** Shuffling rearranges: it keeps exactly the same elements, each as
      often as before. */
  lemma ShuffleIsPermutation<T>(a: seq<T>, rolls: nat -> nat)
    ensures |Shuffle(a, rolls)| == |a|
    ensures multiset(Shuffle(a, rolls)) == multiset(a)
    ensures forall x :: x in Shuffle(a, rolls) <==> x in a
  {
    var r := Shuffle(a, rolls);
    forall x
      ensures x in r <==> x in a
    {
      assert x in r <==> x in multiset(r);
      assert x in a <==> x in multiset(a);
    }
  }

  // ----------------------------------------------------------- The loop

  /** The variables `displayFeeds` carries from one iteration to the next. */
  datatype LegacyState = LegacyState(
    firstPass: bool, startTime: int,
    titles: seq<string>, urls: seq<string>, textLines: seq<string>, eventLines: seq<string>,
    y: int, speed: int)

  /** The state before the first iteration: `y` and `speed` are unset
      until the first reload, which the first pass forces. */
  function Initial(startTime: int): LegacyState {
    LegacyState(true, startTime, [], [], [], [], 0, 0)
  }

  /** What one iteration takes from outside: the configuration loader, the
      items of the `k`-th URL's page, the title filter and the shuffle's
      random draws. */
  datatype World = World(
    load: (string, Root, string) -> XmlLoad,
    items: (nat, string) -> seq<Item>,
    filter: string -> string,
    rolls: nat -> nat)

  /** The iteration at clock time `now` reloads: it is the first pass, or
      more than 120 seconds have passed since the loop started. */
  predicate Reloads(st: LegacyState, now: int) {
    st.firstPass || now - st.startTime > 120
  }

  /** One iteration of the `while` loop, up to the display of the titles. */
  function Step(st: LegacyState, row: Row, now: int, w: World): (s: LegacyState)
    ensures s.startTime == st.startTime && !s.firstPass
    ensures s.urls == [] && s.textLines == [] && s.eventLines == []
    ensures Reloads(st, now) ==> s.y == RowY(row) && s.speed == RowSpeed(row)
    ensures !Reloads(st, now) ==> s.y == st.y && s.speed == st.speed
  {
    var reload := Reloads(st, now);
    var kept := if reload then [] else st.titles;
    var urls := if reload then GetUrls(row, w.load) else st.urls;
    var lines := if reload then GetStaticText(row, w.load) else st.textLines;
    var queue := Queue(kept, urls, lines, st.eventLines, w.items, w.filter);
    LegacyState(
      false, st.startTime, Shuffle(queue, w.rolls), [], [], [],
      if reload then RowY(row) else st.y,
      if reload then RowSpeed(row) else st.speed)
  }

  /** A reload drops the old titles: the new ones are exactly the freshly
      loaded feed entries and static lines, reordered. Otherwise the old
      titles are kept and whatever was still pending is added. */
  lemma StepQueues(st: LegacyState, row: Row, now: int, w: World)
    ensures var s := Step(st, row, now, w);
      (Reloads(st, now) ==>
        multiset(s.titles) == multiset(Queue([], GetUrls(row, w.load), GetStaticText(row, w.load), st.eventLines, w.items, w.filter)))
      && (!Reloads(st, now) ==>
        multiset(s.titles) == multiset(Queue(st.titles, st.urls, st.textLines, st.eventLines, w.items, w.filter)))
  {
    var reload := Reloads(st, now);
    var kept := if reload then [] else st.titles;
    var urls := if reload then GetUrls(row, w.load) else st.urls;
    var lines := if reload then GetStaticText(row, w.load) else st.textLines;
    ShuffleIsPermutation(Queue(kept, urls, lines, st.eventLines, w.items, w.filter), w.rolls);
  }

  /** With nothing pending, an iteration that does not reload keeps the
      same multiset of titles. */
  lemma NothingPendingOnlyReshuffles(st: LegacyState, row: Row, now: int, w: World)
    requires st.urls == [] && st.textLines == [] && st.eventLines == []
    requires !Reloads(st, now)
    ensures multiset(Step(st, row, now, w).titles) == multiset(st.titles)
  {
    StepQueues(st, row, now, w);
    assert Queue(st.titles, [], [], [], w.items, w.filter) == st.titles;
  }

  /** After an iteration nothing is pending and the first pass is over, so
      a following iteration within 120 seconds of the loop's start only
      reshuffles: the titles stay the same multiset. */
  lemma QuietStepOnlyReshuffles(st: LegacyState, row: Row, t1: int, w1: World, t2: int, w2: World)
    requires t2 - st.startTime <= 120
    ensures var s1 := Step(st, row, t1, w1);
      multiset(Step(s1, row, t2, w2).titles) == multiset(s1.titles)
  {
    NothingPendingOnlyReshuffles(Step(st, row, t1, w1), row, t2, w2);
  }

  /** Every queued title is trimmed, and iterations keep it so. */
  lemma StepKeepsTitlesTrimmed(st: LegacyState, row: Row, now: int, w: World)
    requires forall t | t in st.titles :: IsTrimmed(t)
    ensures forall t | t in Step(st, row, now, w).titles :: IsTrimmed(t)
  {
    var reload := Reloads(st, now);
    var kept := if reload then [] else st.titles;
    var urls := if reload then GetUrls(row, w.load) else st.urls;
    var lines := if reload then GetStaticText(row, w.load) else st.textLines;
    ShuffleIsPermutation(Queue(kept, urls, lines, st.eventLines, w.items, w.filter), w.rolls);
  }

  /** The states of a run of a loop whose iteration is `step`: the given
      state, then one per iteration at the clock times `times`. */
  function Iterate(st: LegacyState, step: (LegacyState, int, World) -> LegacyState,
                   times: seq<int>, worlds: seq<World>): (r: seq<LegacyState>)
    requires |worlds| == |times|
    ensures |r| == |times| + 1 && r[0] == st
    decreases |times|
  {
    if |times| == 0 then [st]
    else [st] + Iterate(step(st, times[0], worlds[0]), step, times[1..], worlds[1..])
  }

  /** Consecutive states of a run are one iteration apart. */
  lemma {:induction false} IterateSteps(st: LegacyState, step: (LegacyState, int, World) -> LegacyState,
                                        times: seq<int>, worlds: seq<World>, k: nat)
    requires |worlds| == |times| && k < |times|
    ensures Iterate(st, step, times, worlds)[k + 1] == step(Iterate(st, step, times, worlds)[k], times[k], worlds[k])
    decreases k
  {
    if k > 0 {
      var next := step(st, times[0], worlds[0]);
      IterateSteps(next, step, times[1..], worlds[1..], k - 1);
      assert Iterate(st, step, times, worlds) == [st] + Iterate(next, step, times[1..], worlds[1..]);
      assert times[1..][k - 1] == times[k] && worlds[1..][k - 1] == worlds[k];
    }
  }

  /** The states of a run of the loop as written. */
  function Run(st: LegacyState, row: Row, times: seq<int>, worlds: seq<World>): seq<LegacyState>
    requires |worlds| == |times|
  {
    Iterate(st, (s, t, w) => Step(s, row, t, w), times, worlds)
  }

  /** Consecutive states of a run of the loop are one iteration apart. */
  lemma RunSteps(st: LegacyState, row: Row, times: seq<int>, worlds: seq<World>, k: nat)
    requires |worlds| == |times| && k < |times|
    ensures |Run(st, row, times, worlds)| == |times| + 1
    ensures Run(st, row, times, worlds)[k + 1] == Step(Run(st, row, times, worlds)[k], row, times[k], worlds[k])
  {
    IterateSteps(st, (s, t, w) => Step(s, row, t, w), times, worlds, k);
  }

  /** Along `states` the clock never moves, and the first pass is over
      after the first iteration. */
  predicate ClockKept(states: seq<LegacyState>, times: seq<int>) {
    |states| == |times| + 1
    && forall m | 1 <= m <= |times| :: !states[m].firstPass && states[m].startTime == states[m - 1].startTime
  }

  lemma {:induction false} ClockKeptFromStart(states: seq<LegacyState>, times: seq<int>, k: nat)
    requires ClockKept(states, times) && k <= |times|
    ensures states[k].startTime == states[0].startTime
    ensures k > 0 ==> !states[k].firstPass
    decreases k
  {
    if k > 0 {
      ClockKeptFromStart(states, times, k - 1);
    }
  }

  /** The start time is never reset and the first pass is over after one
      iteration, so iteration `k` reloads exactly when it is the first or
      comes more than 120 seconds after the start: once two minutes have
      passed, every iteration reloads. */
  lemma {:induction false} ReloadsAfterTwoMinutes(t0: int, row: Row, times: seq<int>, worlds: seq<World>, k: nat)
    requires |worlds| == |times| && k < |times|
    ensures var states := Run(Initial(t0), row, times, worlds);
      states[k].startTime == t0
      && (Reloads(states[k], times[k]) <==> k == 0 || times[k] - t0 > 120)
  {
    var states := Run(Initial(t0), row, times, worlds);
    RunKeepsClock(Initial(t0), row, times, worlds);
    ClockKeptFromStart(states, times, k);
  }

  /** No iteration of the loop as written moves the start time, and each
      one ends the first pass. */
  lemma {:induction false} RunKeepsClock(st: LegacyState, row: Row, times: seq<int>, worlds: seq<World>)
    requires |worlds| == |times|
    ensures ClockKept(Run(st, row, times, worlds), times)
  {
    var states := Run(st, row, times, worlds);
    forall m | 1 <= m <= |times|
      ensures !states[m].firstPass && states[m].startTime == states[m - 1].startTime
    {
      RunSteps(st, row, times, worlds, m - 1);
    }
    if |times| > 0 {
      RunSteps(st, row, times, worlds, 0);
    }
  }

  /** The loop as written never restarts its clock, so two iterations ten
      seconds apart both reload once two minutes have passed. */
  lemma ReloadClockNeverRestarts(row: Row, w: World)
    ensures var states := Run(Initial(0), row, [0, 130, 140], [w, w, w]);
      Reloads(states[1], 130) && Reloads(states[2], 140)
  {
    ReloadsAfterTwoMinutes(0, row, [0, 130, 140], [w, w, w], 1);
    ReloadsAfterTwoMinutes(0, row, [0, 130, 140], [w, w, w], 2);
  }

  /** The iteration with the clock restarted at every reload, so that the
      next reload waits for two minutes after the last one. */
  function RefreshStep(st: LegacyState, row: Row, now: int, w: World): (s: LegacyState)
    ensures Reloads(st, now) ==> s.startTime == now
    ensures !Reloads(st, now) ==> s.startTime == st.startTime
    ensures !s.firstPass && s.titles == Step(st, row, now, w).titles
  {
    var s := Step(st, row, now, w);
    if Reloads(st, now) then s.(startTime := now) else s
  }

  /** The states of a run of the corrected loop. */
  function RefreshRun(st: LegacyState, row: Row, times: seq<int>, worlds: seq<World>): seq<LegacyState>
    requires |worlds| == |times|
  {
    Iterate(st, (s, t, w) => RefreshStep(s, row, t, w), times, worlds)
  }

  lemma RefreshRunSteps(st: LegacyState, row: Row, times: seq<int>, worlds: seq<World>, k: nat)
    requires |worlds| == |times| && k < |times|
    ensures |RefreshRun(st, row, times, worlds)| == |times| + 1
    ensures RefreshRun(st, row, times, worlds)[k + 1]
      == RefreshStep(RefreshRun(st, row, times, worlds)[k], row, times[k], worlds[k])
  {
    IterateSteps(st, (s, t, w) => RefreshStep(s, row, t, w), times, worlds, k);
  }

  /** Along `states`, the clock moves to the time of every iteration that
      reloads, and the first pass is over after the first iteration. */
  predicate ClockRestarts(states: seq<LegacyState>, times: seq<int>) {
    |states| == |times| + 1
    && forall m | 1 <= m <= |times| ::
      !states[m].firstPass
      && states[m].startTime == (if Reloads(states[m - 1], times[m - 1]) then times[m - 1] else states[m - 1].startTime)
  }

  lemma {:induction false} LastReloadSetsClock(states: seq<LegacyState>, times: seq<int>, k: nat)
    requires ClockRestarts(states, times) && states[0].firstPass && 0 < k < |times|
    ensures exists j | 0 <= j < k ::
        states[k].startTime == times[j] && Reloads(states[j], times[j])
        && forall m | j < m < k :: !Reloads(states[m], times[m])
    ensures Reloads(states[k], times[k]) <==> times[k] - states[k].startTime > 120
    decreases k
  {
    if k > 1 {
      LastReloadSetsClock(states, times, k - 1);
      if !Reloads(states[k - 1], times[k - 1]) {
        var j :| 0 <= j < k - 1 && states[k - 1].startTime == times[j] && Reloads(states[j], times[j])
          && forall m | j < m < k - 1 :: !Reloads(states[m], times[m]);
        assert states[k].startTime == times[j];
      }
    }
  }

  /** In the corrected loop every iteration after the first measures from
      the latest reload: its clock is the time of the last iteration that
      reloaded, and it reloads exactly when more than 120 seconds have
      passed since then. */
  lemma RefreshReloadsTwoMinutesApart(t0: int, row: Row, times: seq<int>, worlds: seq<World>, k: nat)
    requires |worlds| == |times| && 0 < k < |times|
    ensures var states := RefreshRun(Initial(t0), row, times, worlds);
      (exists j | 0 <= j < k ::
        states[k].startTime == times[j] && Reloads(states[j], times[j])
        && forall m | j < m < k :: !Reloads(states[m], times[m]))
      && (Reloads(states[k], times[k]) <==> times[k] - states[k].startTime > 120)
  {
    var states := RefreshRun(Initial(t0), row, times, worlds);
    forall m | 1 <= m <= |times|
      ensures !states[m].firstPass
      ensures states[m].startTime == (if Reloads(states[m - 1], times[m - 1]) then times[m - 1] else states[m - 1].startTime)
    {
      RefreshRunSteps(Initial(t0), row, times, worlds, m - 1);
    }
    LastReloadSetsClock(states, times, k);
  }

  /** The same three iterations in the corrected loop: the one ten
      seconds after a reload keeps the titles it has. */
  lemma RefreshWaitsTwoMinutes(row: Row, w: World)
    ensures var states := RefreshRun(Initial(0), row, [0, 130, 140], [w, w, w]);
      Reloads(states[1], 130) && !Reloads(states[2], 140)
  {
    RefreshReloadsTwoMinutesApart(0, row, [0, 130, 140], [w, w, w], 1);
    RefreshReloadsTwoMinutesApart(0, row, [0, 130, 140], [w, w, w], 2);
    RefreshRunSteps(Initial(0), row, [0, 130, 140], [w, w, w], 1);
  }

  // -------------------------------------------------------------- Display

  /** Two decimal digits, with a leading zero. */
  function TwoDigits(n: int): (r: string)
    requires 0 <= n < 100
    ensures |r| == 2 && '0' <= r[0] <= '9' && '0' <= r[1] <= '9'
    ensures (r[0] as int - '0' as int) * 10 + (r[1] as int - '0' as int) == n
  {
    [(('0' as int) + n / 10) as char, (('0' as int) + n % 10) as char]
  }

  /** `currentTime`'s `strftime(" %I:%M %p")` for an hour of the day and a
      minute: a space, the twelve-hour clock hour and the minute, a space
      and AM or PM. */
  function ClockText(hour: int, minute: int): (r: string)
    requires 0 <= hour < 24 && 0 <= minute < 60
    ensures |r| == 9 && r[0] == ' ' && r[3] == ':' && r[6] == ' '
    ensures forall k | k in {1, 2, 4, 5} :: '0' <= r[k] <= '9'
    ensures var h := (r[1] as int - '0' as int) * 10 + (r[2] as int - '0' as int);
      1 <= h <= 12 && h % 12 == hour % 12
    ensures (r[4] as int - '0' as int) * 10 + (r[5] as int - '0' as int) == minute
    ensures r[7..] == (if hour < 12 then "AM" else "PM")
  {
    var h := if hour % 12 == 0 then 12 else hour % 12;
    " " + TwoDigits(h) + ":" + TwoDigits(minute) + " " + (if hour < 12 then "AM" else "PM")
  }

  /** The text shown for a queued title: the bottom row appends a space
      and the clock, whatever the title's width. */
  function DisplayTitle(row: Row, title: string, clock: string): (r: string)
    ensures row == Top ==> r == title
    ensures row == Bottom ==>
      |r| == |title| + 1 + |clock| && r[..|title|] == title && r[|title|] == ' ' && r[|title| + 1..] == clock
  {
    match row
    case Top => title
    case Bottom => title + " " + clock
  }

  /** The top row shows the title as queued; the bottom row shows it with
      two spaces and then the time, ten characters longer. */
  lemma DisplayTitleShape(row: Row, title: string, hour: int, minute: int)
    requires 0 <= hour < 24 && 0 <= minute < 60
    ensures row == Top ==> DisplayTitle(row, title, ClockText(hour, minute)) == title
    ensures row == Bottom ==>
      var d := DisplayTitle(row, title, ClockText(hour, minute));
      |d| == |title| + 10 && d[..|title|] == title
      && d[|title|..|title| + 2] == "  " && d[|title| + 2..] == ClockText(hour, minute)[1..]
  {
    if row == Bottom {
      var c := ClockText(hour, minute);
      var d := title + " " + c;
      assert d[..|title|] == title;
      assert d[|title| + 2..] == c[1..];
    }
  }

  /** The colour of three `rand()` values: each taken modulo 255. */
  function ColourOf(draw: (nat, nat, nat)): (c: Colour)
    ensures c.r <= 254 && c.g <= 254 && c.b <= 254
  {
    Colour(draw.0 % 255, draw.1 % 255, draw.2 % 255)
  }

  /** The rejection test: a colour too dark to read. */
  predicate TooDark(c: Colour) {
    c.r + c.g + c.b < 50
  }

  /** The colour loop: the first triple of draws whose colour is bright
      enough; none when every supplied triple is rejected. */
  function PickColour(draws: seq<(nat, nat, nat)>): (c: Option<Colour>)
    ensures c.Some? ==> c.value.r <= 254 && c.value.g <= 254 && c.value.b <= 254
    ensures c.Some? ==> !TooDark(c.value)
    ensures c.Some? ==>
      exists i | 0 <= i < |draws| :: c.value == ColourOf(draws[i]) && forall j | 0 <= j < i :: TooDark(ColourOf(draws[j]))
    ensures c.None? <==> forall j | 0 <= j < |draws| :: TooDark(ColourOf(draws[j]))
  {
    if |draws| == 0 then None
    else if !TooDark(ColourOf(draws[0])) then Some(ColourOf(draws[0]))
    else
      var rest := PickColour(draws[1..]);
      assert forall j | 1 <= j < |draws| :: draws[1..][j - 1] == draws[j];
      if rest.Some? then
        var i :| 0 <= i < |draws[1..]| && rest.value == ColourOf(draws[1..][i])
          && forall j | 0 <= j < i :: TooDark(ColourOf(draws[1..][j]));
        assert rest.value == ColourOf(draws[i + 1]);
        rest
      else rest
  }

  // -------------------------------------------------------------- Effects

  /** Which way an erase sweep clears the row. */
  datatype Sweep = TopDown | BottomUp | LeftToRight | RightToLeft

  /** One of the sweep branch's eight rounds: each test draws a fresh
      `rand() % 10`; when all four fail the round does nothing. */
  function SweepOf(r0: nat, r1: nat, r2: nat, r3: nat): (s: Option<Sweep>)
    ensures s == Some(TopDown) <==> r0 % 10 < 3
    ensures s == Some(BottomUp) <==> r0 % 10 >= 3 && r1 % 10 < 4
    ensures s == Some(LeftToRight) <==> r0 % 10 >= 3 && r1 % 10 >= 4 && r2 % 10 < 5
    ensures s == Some(RightToLeft) <==> r0 % 10 >= 3 && r1 % 10 >= 4 && r2 % 10 >= 5 && r3 % 10 < 6
  {
    if r0 % 10 < 3 then Some(TopDown)
    else if r1 % 10 < 4 then Some(BottomUp)
    else if r2 % 10 < 5 then Some(LeftToRight)
    else if r3 % 10 < 6 then Some(RightToLeft)
    else None
  }

  /** How a title is shown. */
  datatype Effect = LegacyBlink | Sweeps(rounds: seq<Option<Sweep>>) | LegacyScroll

  /** The fit test of the loop: the title's drawn length is less than the
      canvas width less one pixel. */
  predicate LegacyFits(title: string, width: int) {
    DrawLength(title) < width - 1
  }

  /** The effect chain: blink with a `rand() % 10 < 3`, otherwise sweeps
      with a second draw `< 8`, otherwise, and always when the title does
      not fit, scroll. */
  function ChooseEffect(title: string, width: int, roll1: nat, roll2: nat,
                        sweepRolls: nat -> (nat, nat, nat, nat)): (e: Effect)
    ensures e.LegacyBlink? <==> LegacyFits(title, width) && roll1 % 10 < 3
    ensures e.Sweeps? <==> LegacyFits(title, width) && roll1 % 10 >= 3 && roll2 % 10 < 8
    ensures e.Sweeps? ==> (|e.rounds| == 8
      && forall k | 0 <= k < 8 :: e.rounds[k] == SweepOf(sweepRolls(k).0, sweepRolls(k).1, sweepRolls(k).2, sweepRolls(k).3))
    ensures !LegacyFits(title, width) ==> e == LegacyScroll
  {
    if LegacyFits(title, width) && roll1 % 10 < 3 then LegacyBlink
    else if LegacyFits(title, width) && roll2 % 10 < 8 then
      Sweeps(seq(8, k requires 0 <= k < 8 => SweepOf(sweepRolls(k).0, sweepRolls(k).1, sweepRolls(k).2, sweepRolls(k).3)))
    else LegacyScroll
  }

  /** The black lines of a sweep over a row: full-width lines over the
      row's sixteen pixel rows, or full-height lines over the columns. A
      sweep stays inside its own row and covers it: a row sweep draws each
      of the row's sixteen pixel rows once (top row 0 to 15, bottom row 16
      to 31), in rising or falling order; a column sweep draws every column
      from 0 to `width - 1` rising, or from `width` down to 0. */
  function SweepLines(s: Sweep, row: Row, width: int): (ops: seq<DrawOp>)
    ensures forall k | 0 <= k < |ops| :: RowClear(ops[k], row)
    ensures s == TopDown ==>
      |ops| == 16 && forall k | 0 <= k < 16 :: ops[k] == Line(0, RowY(row) + k, width, RowY(row) + k, Black)
    ensures s == BottomUp ==>
      |ops| == 16 && forall k | 0 <= k < 16 :: ops[k] == Line(0, RowY(row) + 15 - k, width, RowY(row) + 15 - k, Black)
    ensures s == LeftToRight ==>
      |ops| == (if width >= 1 then width else 0) && forall k | 0 <= k < |ops| :: ops[k].Line? && ops[k].x0 == ops[k].x1 == k
    ensures s == RightToLeft ==>
      |ops| == (if width >= 0 then width + 1 else 0) && forall k | 0 <= k < |ops| :: ops[k].Line? && ops[k].x0 == ops[k].x1 == width - k
  {
    var top := RowY(row);
    match s
    case TopDown => HLines(Countup(top, top + 15), width)
    case BottomUp => HLines(Countdown(top + 15, top), width)
    case LeftToRight => VLines(Countup(0, width - 1), top)
    case RightToLeft => VLines(Countdown(width, 0), top)
  }

  /** Black lines across the canvas on the pixel rows `ys`. */
  function HLines(ys: seq<int>, width: int): (r: seq<DrawOp>)
    ensures |r| == |ys|
    ensures forall k | 0 <= k < |ys| :: r[k] == Line(0, ys[k], width, ys[k], Black)
  {
    seq(|ys|, k requires 0 <= k < |ys| => Line(0, ys[k], width, ys[k], Black))
  }

  /** Black sixteen-pixel lines from `top` down in the columns `xs`. */
  function VLines(xs: seq<int>, top: int): (r: seq<DrawOp>)
    ensures |r| == |xs|
    ensures forall k | 0 <= k < |xs| :: r[k] == Line(xs[k], top, xs[k], top + 15, Black)
  {
    seq(|xs|, k requires 0 <= k < |xs| => Line(xs[k], top, xs[k], top + 15, Black))
  }

  /** A black line inside the pixel rows of `row`. */
  predicate RowClear(op: DrawOp, row: Row) {
    op.Line? && op.colour == Black && RowY(row) <= op.y0 <= op.y1 <= RowY(row) + 15
  }

  /** The draw operations of one sweep round: the centred title, then the
      sweep; nothing for a round whose tests all failed. */
  function SweepRound(round: Option<Sweep>, row: Row, width: int, lit: DrawOp): (r: seq<DrawOp>)
    ensures round.None? ==> r == []
    ensures round.Some? ==> |r| == 1 + |SweepLines(round.value, row, width)| && r[0] == lit
    ensures forall k | 1 <= k < |r| :: RowClear(r[k], row)
  {
    match round
    case None => []
    case Some(s) =>
      var lines := SweepLines(s, row, width);
      assert forall k | 1 <= k < 1 + |lines| :: ([lit] + lines)[k] == lines[k - 1];
      [lit] + lines
  }

  /** The sweep rounds: each round that fires draws the centred title and
      then clears the title's row; the number of operations is the rounds'
      total. */
  function SweepRounds(rounds: seq<Option<Sweep>>, row: Row, width: int, lit: DrawOp): (r: seq<DrawOp>)
    ensures |r| == SweepCount(rounds, row, width)
    ensures forall k | 0 <= k < |r| :: r[k] == lit || RowClear(r[k], row)
    decreases |rounds|
  {
    if |rounds| == 0 then []
    else
      var here := SweepRound(rounds[0], row, width, lit);
      var rest := SweepRounds(rounds[1..], row, width, lit);
      assert forall k | 0 <= k < |rest| :: (here + rest)[|here| + k] == rest[k];
      here + rest
  }

  /** One title on the canvas: the blink's six on/off pairs, the sweep
      rounds, or two scroll passes from `width` down to the last position
      before `-9·|title| - 40`, drawing without erasing. Every operation is
      the buffered title on the row's baseline, in the colour or in black,
      or a black line inside the row. */
  function TitleTrace(title: string, row: Row, width: int, baseline: int, colour: Colour, e: Effect): (r: seq<DrawOp>)
    ensures forall k | 0 <= k < |r| ::
      (r[k].Text? && r[k].y == RowY(row) + baseline && r[k].text == Truncated(title)
       && (r[k].colour == colour || r[k].colour == Black))
      || RowClear(r[k], row)
    ensures e == LegacyBlink ==> |r| == 12
    ensures e.Sweeps? ==> r == SweepRounds(e.rounds, row, width,
      Text(Centre(width, DrawLength(title)), RowY(row) + baseline, colour, Truncated(title)))
  {
    var drawn := Truncated(title);
    var y := RowY(row) + baseline;
    var lit := Text(Centre(width, DrawLength(title)), y, colour, drawn);
    match e
    case LegacyBlink =>
      var lits := seq(6, _ => lit);
      var r := Flash(lits);
      assert forall k | 0 <= k < 12 :: r[k] == lit || r[k] == EraseOf(lit) by {
        forall k | 0 <= k < 12
          ensures r[k] == lit || r[k] == EraseOf(lit)
        {
          var h := k / 2;
          assert lits[h] == lit;
          assert k == 2 * h || k == 2 * h + 1;
        }
      }
      r
    case Sweeps(rounds) => SweepRounds(rounds, row, width, lit)
    case LegacyScroll =>
      var pass := Countdown(width, -DrawLength(title) - 39);
      TextsAt(pass + pass, y, colour, drawn)
  }

  /** The legacy scroll issues no erase draws: every frame is the title in
      its colour, the first pass visits each position from `width` down to
      `-9·|title| - 39` once and the second pass repeats it. */
  lemma LegacyScrollFrames(title: string, row: Row, width: int, baseline: int, colour: Colour)
    ensures var ops := TitleTrace(title, row, width, baseline, colour, LegacyScroll);
      var last := -DrawLength(title) - 39;
      var n := if width >= last then width - last + 1 else 0;
      |ops| == 2 * n
      && (forall k | 0 <= k < |ops| :: ops[k].Text? && ops[k].colour == colour && ops[k].text == Truncated(title))
      && (forall k | 0 <= k < n :: ops[k].x == width - k && ops[n + k] == ops[k])
  {
    var last := -DrawLength(title) - 39;
    var pass := Countdown(width, last);
    var n := |pass|;
    forall k | 0 <= k < n
      ensures (pass + pass)[k] == width - k && (pass + pass)[n + k] == (pass + pass)[k]
    {
      assert pass[k] == width - k;
    }
  }

  /** The blink is six draw/erase pairs at the centred position, so it
      leaves its row blank. */
  lemma LegacyBlinkLeavesBlank(title: string, row: Row, width: int, baseline: int, colour: Colour)
    ensures var ops := TitleTrace(title, row, width, baseline, colour, LegacyBlink);
      |ops| == 12 && LeavesBlank(ops)
      && forall k | 0 <= k < 12 :: ops[k].Text? && ops[k].x == Centre(width, DrawLength(title))
  {
    var lit := Text(Centre(width, DrawLength(title)), RowY(row) + baseline, colour, Truncated(title));
    var lits := seq(6, _ => lit);
    FlashLeavesBlank(lits);
    var ops := Flash(lits);
    forall k | 0 <= k < 12
      ensures ops[k].Text? && ops[k].x == lit.x
    {
      var h := k / 2;
      assert lits[h] == lit;
      assert k == 2 * h + k % 2;
    }
  }

  /** Number of operations of the sweep rounds. */
  function SweepCount(rounds: seq<Option<Sweep>>, row: Row, width: int): nat
    decreases |rounds|
  {
    if |rounds| == 0 then 0
    else
      var here := if rounds[0].Some? then 1 + |SweepLines(rounds[0].value, row, width)| else 0;
      here + SweepCount(rounds[1..], row, width)
  }

  // ------------------------------------------------------------ One title

  /** What showing one queued title comes to: the text on the sign, its
      colour, the chosen effect and the draw operations. */
  datatype Shown = Shown(text: string, colour: Colour, effect: Effect, ops: seq<DrawOp>)

  /** The body of the display loop for one queued title: the bottom row
      appends the clock, a colour comes from the rejection loop, the effect
      is chosen by the fit test on the text as shown, and the effect is
      drawn. Nothing is shown when every supplied colour draw is too dark;
      the source would keep drawing. */
  function ShowTitle(row: Row, queued: string, clock: string, width: int, baseline: int,
                     colourDraws: seq<(nat, nat, nat)>, roll1: nat, roll2: nat,
                     sweepRolls: nat -> (nat, nat, nat, nat)): (r: Option<Shown>)
    ensures r.None? <==> forall j | 0 <= j < |colourDraws| :: TooDark(ColourOf(colourDraws[j]))
    ensures r.Some? ==> !TooDark(r.value.colour) && r.value.text == DisplayTitle(row, queued, clock)
    ensures r.Some? && r.value.effect != LegacyScroll ==> LegacyFits(r.value.text, width)
    ensures r.Some? ==> forall k | 0 <= k < |r.value.ops| ::
      (r.value.ops[k].Text? && r.value.ops[k].text == Truncated(r.value.text)
       && (r.value.ops[k].colour == r.value.colour || r.value.ops[k].colour == Black))
      || RowClear(r.value.ops[k], row)
  {
    var text := DisplayTitle(row, queued, clock);
    match PickColour(colourDraws)
    case None => None
    case Some(c) =>
      var e := ChooseEffect(text, width, roll1, roll2, sweepRolls);
      Some(Shown(text, c, e, TitleTrace(text, row, width, baseline, c, e)))
  }

  /** On the bottom row the fit test and the scroll measure the title with
      the clock appended, ten characters more than the queued text: any
      effect other than the scroll needs `9·(|title| + 10) < width - 1`, and
      the scroll runs from `width` down to `-9·(|title| + 10) - 39`, twice.
      The top row measures the queued title as it is. */
  lemma ShownWidthCountsTheClock(row: Row, queued: string, hour: int, minute: int, width: int, baseline: int,
                                 colourDraws: seq<(nat, nat, nat)>, roll1: nat, roll2: nat,
                                 sweepRolls: nat -> (nat, nat, nat, nat))
    requires 0 <= hour < 24 && 0 <= minute < 60
    ensures var r := ShowTitle(row, queued, ClockText(hour, minute), width, baseline, colourDraws, roll1, roll2, sweepRolls);
      var chars := if row == Bottom then |queued| + 10 else |queued|;
      var last := -CharAdvance * chars - 39;
      var n := if width >= last then width - last + 1 else 0;
      r.Some? ==>
        (r.value.effect != LegacyScroll ==> CharAdvance * chars < width - 1)
        && (r.value.effect == LegacyScroll ==>
              |r.value.ops| == 2 * n && forall k | 0 <= k < n :: r.value.ops[k].Text? && r.value.ops[k].x == width - k)
  {
    var text := DisplayTitle(row, queued, ClockText(hour, minute));
    DisplayTitleShape(row, queued, hour, minute);
    var r := ShowTitle(row, queued, ClockText(hour, minute), width, baseline, colourDraws, roll1, roll2, sweepRolls);
    if r.Some? {
      LegacyScrollFrames(text, row, width, baseline, r.value.colour);
    }
  }
}

=== FILE: trim.dfy ===
/** The space trimming used for every message and configuration value.
    Both copies of `trim` in the program (the message sources and the
    legacy row loop) are the same algorithm: locate the first and the last
    character that is not ' ' and keep the span between them; a string with
    no such character is returned unchanged. Only ' ' is stripped. */
module Trimming {

  /** Every character of `s` is the space character. */
  predicate AllSpaces(s: string) {
    forall i | 0 <= i < |s| :: s[i] == ' '
  }

  /** Drops the leading run of spaces. */
  function TrimLeft(s: string): (r: string)
    ensures |r| <= |s| && r == s[|s| - |r|..]
    ensures AllSpaces(s[..|s| - |r|])
    ensures |r| > 0 ==> r[0] != ' '
    decreases |s|
  {
    if |s| > 0 && s[0] == ' ' then TrimLeft(s[1..]) else s
  }

  /** Drops the trailing run of spaces. */
  function TrimRight(s: string): (r: string)
    ensures |r| <= |s| && r == s[..|r|]
    ensures AllSpaces(s[|r|..])
    ensures |r| > 0 ==> r[|r| - 1] != ' '
    decreases |s|
  {
    if |s| > 0 && s[|s| - 1] == ' ' then TrimRight(s[..|s| - 1]) else s
  }

  /** `trim`: the span from the first to the last non-space character, or
      the input itself when it has none. */
  function Trim(s: string): (r: string)
    ensures AllSpaces(s) ==> r == s
    ensures !AllSpaces(s) ==> |r| > 0 && r[0] != ' ' && r[|r| - 1] != ' '
    ensures !AllSpaces(s) ==>
      exists i | 0 <= i <= |s| - |r| ::
        s[i..i + |r|] == r && AllSpaces(s[..i]) && AllSpaces(s[i + |r|..])
  {
    if AllSpaces(s) then s
    else
      var left := TrimLeft(s);
      var r := TrimRight(left);
      var i := |s| - |left|;
      assert s[i..i + |r|] == r;
      assert s[i + |r|..] == left[|r|..];
      r
  }

  /** A string that trimming leaves unchanged. */
  predicate IsTrimmed(s: string) {
    Trim(s) == s
  }

  /** A string that neither starts nor ends with a space is its own trim:
      tabs, newlines and every other character are kept. */
  lemma TrimKeepsUnpadded(s: string)
    requires |s| > 0 && s[0] != ' ' && s[|s| - 1] != ' '
    ensures IsTrimmed(s)
  {
    assert !AllSpaces(s);
    var r := Trim(s);
    var i :| 0 <= i <= |s| - |r| && s[i..i + |r|] == r && AllSpaces(s[..i]) && AllSpaces(s[i + |r|..]);
  }

  /** A string that starts with a non-space keeps its head: the trim runs
      from the first character at least past any other non-space `s[p]`. */
  lemma TrimKeepsHead(s: string, p: int)
    requires 0 <= p < |s| && s[0] != ' ' && s[p] != ' '
    ensures |Trim(s)| > p && Trim(s)[..p + 1] == s[..p + 1]
  {
    assert !AllSpaces(s);
    assert TrimLeft(s) == s;
  }

  /** A string that starts with a non-space loses only trailing spaces. */
  lemma TrimKeepsFront(s: string)
    requires |s| > 0 && s[0] != ' '
    ensures Trim(s) == TrimRight(s)
  {
    assert !AllSpaces(s);
    assert TrimLeft(s) == s;
  }

  /** Trimming twice is trimming once. */
  lemma TrimIdempotent(s: string)
    ensures IsTrimmed(Trim(s))
  {
    if !AllSpaces(s) {
      TrimKeepsUnpadded(Trim(s));
    }
  }
}
